=== FILE: README.md ===
# AppShortcutsCompat in Dafny

A model of the static app-shortcut discovery of AppShortcutsCompat. The library finds an installed package's static shortcuts by reading two compiled XML documents:

1. **The manifest.** `AppShortcutPackageParser` walks the package's manifest. It indexes every direct-child `activity` or `activity-alias` of the top-level `application` element that carries a `meta-data` named `android.app.shortcuts`. The index maps the component to the integer resource id written as `@<id>` in that `meta-data`.
2. **The shortcut resources.** For each index entry, `AppShortcutParser` walks the referenced XML resource. It turns every `<shortcut>` that holds an `<intent>` into an `AppShortcut` record. The record keeps its id, launch intent, declaring component, three labels and icon. The labels may be literal text or `@<id>` string references.
3. **The export gate.** A record is kept only if both the declaring component and the intent's target are exported. Exported means that the first activity in the package's metadata with that class name carries the exported flag.
4. **The entry point.** `AppShortcutsCompat.getAppShortcuts` checks its arguments, then concatenates the per-entry lists.

The pieces map to Dafny as follows:
- **Documents.** An XML document is a sequence of pull events (`XmlPull.Event`). The end of the sequence is END_DOCUMENT.
- **Parser state.** A parser's state is the index `pos` of the next event, so its current event is `doc[pos - 1]`.
- **Exceptions.** Every exception the code can throw is a `Platform.Exception` inside an `Outcome`:
  - `XmlPullParser` is the failure of `require`;
  - `IllegalState`, `NumberFormat` and `NullPointer` are the Java exceptions of those names;
  - `IndexOutOfBounds` is the failure of `substring(1)` on "";
  - `NotFound` and `NameNotFound` are the platform's lookup failures;
  - `NullArgument` is the failure of `checkNotNull`.
- **Platform services.** Resources, package metadata and installed packages are plain maps and sequences (`Android`).
- **The record.** `AppShortcut` is an immutable datatype whose destructors are the getters.

The central proved properties:
- **`skip`.** It stops exactly at the matching end tag, defined by nesting depth (`XmlPull.Skip`).
- **The manifest index.** Every entry is justified by a shortcuts `meta-data` inside an activity element that is a direct child of the top-level `application` and names that component (`PackageParser.ParseManifest`). Conversely, a component with such a marker is indexed with the id of the last marker the scan reads for it, and a component with none is absent (`PackageParser.ParseManifestComplete`). These two hold on a scan that succeeds. The scan throws exactly when the document does not open with `manifest`, when no top-level event names `application`, or when a child of that `application` never closes or is a named activity holding a shortcuts `meta-data` with an absent or empty `resource` (`PackageParser.ParseManifestFails`). An unparsable id, a nameless activity and any other child are passed over, never thrown on.
- **Each record.** A pass over a `shortcut` throws exactly when a label or the icon cannot be resolved or the element never closes (`ShortcutParser.ParseShortcutFails`). A shortcut without an intent, or one the export gate rejects, is dropped without an error. On a pass that succeeds, a record is appended exactly when its subtree has an intent and both components are exported (`ShortcutParser.ShortcutKeptIff`, `ShortcutParser.ParseShortcutKept`). Its fields are those of its own `shortcut` tag: the declared or synthesized id, the resolved labels and icon, and the first intent of its subtree with the three launch flags set (`ShortcutParser.ParseShortcutRecord`).
- **Each list.** `parse` throws exactly for an unknown package, a missing resource, a root other than `shortcuts`, or a child of the root that breaks the loop: one that is neither an end tag nor a `shortcut`, or a `shortcut` whose pass throws (`ShortcutParser.ParseFails`). A successful list holds one record per kept `shortcut` child of the root, in document order (`ShortcutParser.ParseContents`).
- **`getAppShortcuts`.** The result is the concatenation over the map's iteration order. Any enumeration order gives the same success and the same multiset of shortcuts (`Compat.OrderIndependent`).

Behaviour of the code worth knowing, which the model reproduces:
- **Repeated shortcuts meta-data.** When an activity has several, the last one wins (`Scenarios.LastMetaDataWins`). Scanning does not stop at the first.
- **Resource ids.** The first UTF-16 unit of `resource` is dropped without looking at it, and the rest goes to `Integer.parseInt`. A model string is a sequence of code points, so a first character above U+FFFF, two units in Java, leaves its low surrogate in front of the digits; nothing parses and the index is left unchanged (`Scenarios.SupplementaryLead`). The id stored in the index is whatever that returns, including 0 and negative values; nothing checks that it is positive.
- **Eager list.** `parse` returns a complete list, not a lazy sequence. Every nested intent is parsed and consumed, though only the first is used.
- **Synthesized ids.** The number in a synthesized id is the count of records accepted so far for that declaring component, not the position of the `<shortcut>` element.
- **Missing icon.** A shortcut with no `icon` attribute asks for drawable 0. When 0 is not a key of the package's drawables, that lookup fails with `NotFound(0)` and the whole list fails with it (`Scenarios.MissingIcon`).

Files, leaf first:
- `wrappers.dfy`: `Option`, `Result`.
- `platform.dfy`: exceptions, `Integer.parseInt`, decimal `toString`.
- `xml_pull.dfy`: events, depth, `skip`.
- `android.dfy`: component names, intents, resources, package metadata.
- `app_shortcut.dfy`: the record.
- `package_parser.dfy`: the manifest scanner.
- `shortcut_parser.dfy`: the shortcut scanner and export gate.
- `compat.dfy`: the entry point.
- `scenarios.dfy`: worked examples, proved lemmas about small documents.

## Model

| member | source | states |
|---|---|---|
| Platform.ParseInt | appshortcutscompat/src/main/java/com/ivianuu/appshortcutscompat/AppShortcutParser.java:188 | `Integer.parseInt` yields only Java `int` values, and only for text that starts with a digit or a sign |
| Platform.ParseIntRoundTrip | appshortcutscompat/src/main/java/com/ivianuu/appshortcutscompat/AppShortcutPackageParser.java:142 | every Java `int` written in decimal parses back to itself, so `@<n>` references round-trip |
| Platform.NatToStringDigits | appshortcutscompat/src/main/java/com/ivianuu/appshortcutscompat/AppShortcutParser.java:112 | the decimal spelling of the list size is a non-empty run of digits that reads back as the size |
| Platform.NatToStringInjective | appshortcutscompat/src/main/java/com/ivianuu/appshortcutscompat/AppShortcutParser.java:112 | different list sizes have different decimal spellings |
| XmlPull.SkipFrom | appshortcutscompat/src/main/java/com/ivianuu/appshortcutscompat/AppShortcutParser.java:199-209 | the depth loop always moves forward and stops inside the document |
| XmlPull.SkipFromSpec | appshortcutscompat/src/main/java/com/ivianuu/appshortcutscompat/AppShortcutPackageParser.java:159-169 | from any open state, the depth loop stops at a position exactly when that position is the matching end tag, and otherwise fails only because the document ended |
| XmlPull.Skip | appshortcutscompat/src/main/java/com/ivianuu/appshortcutscompat/AppShortcutParser.java:195-210 | `skip` away from a start tag throws IllegalState; from a start tag it succeeds exactly at the element's matching end tag |
| PackageParser.PutShortcutsId | appshortcutscompat/src/main/java/com/ivianuu/appshortcutscompat/AppShortcutPackageParser.java:141-146 | an absent `resource` throws NullPointer and an empty one IndexOutOfBounds. Otherwise only this component's entry may change: to the parsed value of `resource` without its first character when that character is in the Basic Multilingual Plane, or not at all when the rest does not parse or the first character lies above U+FFFF |
| PackageParser.ShortcutsIdRoundTrip | appshortcutscompat/src/main/java/com/ivianuu/appshortcutscompat/AppShortcutPackageParser.java:141-146 | a `resource` of one character of the Basic Multilingual Plane followed by the decimal spelling of a Java `int` n stores exactly n for the component |
| PackageParser.SupplementaryLeadIgnored | appshortcutscompat/src/main/java/com/ivianuu/appshortcutscompat/AppShortcutPackageParser.java:141-146 | a `resource` whose first character lies above U+FFFF leaves the index unchanged, since `substring(1)` leaves half of that character in front of the digits |
| PackageParser.ParseMeta | appshortcutscompat/src/main/java/com/ivianuu/appshortcutscompat/AppShortcutPackageParser.java:136-149 | consumes the whole meta-data element. A parsable shortcuts marker sets this component's entry to its id, and any other meta-data, or an unparsable number, leaves the index unchanged. A marker with no `resource` throws NullPointer, one with an empty `resource` throws IndexOutOfBounds, and a tag other than `meta-data` fails the `require`. On a `meta-data` tag no other exception is raised except Unterminated for an element that never closes |
| PackageParser.ParseMetaFails | appshortcutscompat/src/main/java/com/ivianuu/appshortcutscompat/AppShortcutPackageParser.java:136-149 | on a `meta-data` tag, `parseMeta` throws exactly when it is a shortcuts marker whose `resource` is absent or empty, or when the element never closes; the NumberFormatException of an unparsable id is swallowed |
| PackageParser.ScanActivity | appshortcutscompat/src/main/java/com/ivianuu/appshortcutscompat/AppShortcutPackageParser.java:119-133 | the activity's depth loop changes at most its own component's entry, and a changed entry comes from a shortcuts meta-data it read. It throws nothing but NullPointer, IndexOutOfBounds or Unterminated |
| PackageParser.ScanActivityCloses | appshortcutscompat/src/main/java/com/ivianuu/appshortcutscompat/AppShortcutPackageParser.java:119-133 | the activity's depth loop ends at the activity's matching end tag |
| PackageParser.ScanActivityLast | appshortcutscompat/src/main/java/com/ivianuu/appshortcutscompat/AppShortcutPackageParser.java:119-133 | the depth loop leaves the component's entry at the id of the last parsable marker at any depth inside the activity that is not nested in another meta-data, or unchanged when there is none, and leaves other entries alone |
| PackageParser.ScanActivityFails | appshortcutscompat/src/main/java/com/ivianuu/appshortcutscompat/AppShortcutPackageParser.java:119-133 | the activity's depth loop throws only when the activity never closes or when it reads a shortcuts marker with an absent or empty `resource` that is not nested in another meta-data |
| PackageParser.ScanActivityBreaks | appshortcutscompat/src/main/java/com/ivianuu/appshortcutscompat/AppShortcutPackageParser.java:119-133 | conversely, such a marker inside the activity, not nested in another meta-data, makes the depth loop throw |
| PackageParser.ParseActivity | appshortcutscompat/src/main/java/com/ivianuu/appshortcutscompat/AppShortcutPackageParser.java:111-134 | consumes the whole activity element. An activity without `name` leaves the index unchanged, and throws only Unterminated when it never closes. For a named one, only its own entry changes: to the id of the last parsable shortcuts marker at any depth inside the element that is not nested in another meta-data, or not at all when there is none. It throws nothing but NullPointer, IndexOutOfBounds or Unterminated |
| PackageParser.ParseActivityFails | appshortcutscompat/src/main/java/com/ivianuu/appshortcutscompat/AppShortcutPackageParser.java:111-134 | `parseActivity` throws exactly when the activity never closes, or when it has a `name` and holds a shortcuts marker with an absent or empty `resource`, not nested in another meta-data; a nameless activity is skipped whole |
| PackageParser.ScanApplication | appshortcutscompat/src/main/java/com/ivianuu/appshortcutscompat/AppShortcutPackageParser.java:96-103 | scanning the children of `application` never removes an entry, and throws nothing but NullPointer, IndexOutOfBounds or Unterminated |
| PackageParser.ScanApplicationAttributes | appshortcutscompat/src/main/java/com/ivianuu/appshortcutscompat/AppShortcutPackageParser.java:96-103 | every entry the children loop adds names a direct-child activity of `application` that holds a shortcuts meta-data with that id |
| PackageParser.ScanApplicationLast | appshortcutscompat/src/main/java/com/ivianuu/appshortcutscompat/AppShortcutPackageParser.java:96-103 | for each component, the children loop ends with the id of the last marker it reads among the direct-child activities of that name, and leaves the entry as it was when there is no such marker |
| PackageParser.ScanApplicationFails | appshortcutscompat/src/main/java/com/ivianuu/appshortcutscompat/AppShortcutPackageParser.java:96-103 | the children loop of `application` throws only at a child it reads that never closes or is a named activity with a broken shortcuts marker; other children are skipped whole |
| PackageParser.ScanApplicationBreaks | appshortcutscompat/src/main/java/com/ivianuu/appshortcutscompat/AppShortcutPackageParser.java:96-103 | conversely, every such child the loop reads makes it throw |
| PackageParser.FindApplication | appshortcutscompat/src/main/java/com/ivianuu/appshortcutscompat/AppShortcutPackageParser.java:87-106 | the loop before `application` stops on an event named `application`, or throws IllegalState (or runs off the document) |
| PackageParser.FindApplicationTopLevel | appshortcutscompat/src/main/java/com/ivianuu/appshortcutscompat/AppShortcutPackageParser.java:87-94 | the event the loop stops on is the first event directly inside `manifest` that names `application`, and every event read before it is a start tag of another name |
| PackageParser.FindApplicationReaches | appshortcutscompat/src/main/java/com/ivianuu/appshortcutscompat/AppShortcutPackageParser.java:87-95 | conversely, when a top-level event names `application` and every earlier top-level event is another start tag, the loop stops just after that event |
| PackageParser.ParseManifest | appshortcutscompat/src/main/java/com/ivianuu/appshortcutscompat/AppShortcutPackageParser.java:77-109 | a document whose second event is not the `manifest` start tag fails the `require`. Every entry of a successful index is attested by a shortcuts meta-data inside a direct-child activity of the top-level `application`. The exceptions are XmlPullParser, IllegalState, NullPointer, IndexOutOfBounds and Unterminated, and no other |
| PackageParser.ParseManifestComplete | appshortcutscompat/src/main/java/com/ivianuu/appshortcutscompat/AppShortcutPackageParser.java:77-149 | a successful index holds, for each component of the package, the id of the last shortcuts marker inside a direct-child activity of that name in the top-level `application`, and no entry when there is no such marker |
| PackageParser.ParseManifestFails | appshortcutscompat/src/main/java/com/ivianuu/appshortcutscompat/AppShortcutPackageParser.java:77-149 | the manifest parse throws exactly when the document does not open with `manifest`, when no top-level event names `application` after only other start tags, or when a child of that `application` never closes or is a named activity with a broken shortcuts marker |
| ShortcutParser.IsExported | appshortcutscompat/src/main/java/com/ivianuu/appshortcutscompat/AppShortcutParser.java:140-148 | true exactly when the first activity with the component's class name is exported, and false when no activity has that name |
| ShortcutParser.ResourceAttribute | appshortcutscompat/src/main/java/com/ivianuu/appshortcutscompat/AppShortcutParser.java:184-189 | an absent attribute is 0 and one not starting with `@` is -1. Otherwise it is the Java `int` after the `@`, or NumberFormat when that does not parse |
| ShortcutParser.CharSequence | appshortcutscompat/src/main/java/com/ivianuu/appshortcutscompat/AppShortcutParser.java:177-182 | the value is absent exactly when the reference is 0 and is the literal text when it is -1. Any other reference is the string resource of that id, failing exactly when there is none, and an unparsable reference throws NumberFormat |
| ShortcutParser.LabelForms | appshortcutscompat/src/main/java/com/ivianuu/appshortcutscompat/AppShortcutParser.java:177-189 | an absent label is `None` and literal text is itself. `@0` is `None` and `@-1` is the text "@-1". An unparsable `@` value throws NumberFormat |
| ShortcutParser.ResourceReference | appshortcutscompat/src/main/java/com/ivianuu/appshortcutscompat/AppShortcutParser.java:184-189 | an attribute `@<n>` denotes resource id `n` for every Java `int` `n` |
| ShortcutParser.StringReference | appshortcutscompat/src/main/java/com/ivianuu/appshortcutscompat/AppShortcutParser.java:177-182 | a label `@<n>` (n not 0 or -1) is string resource `n`, or NotFound(n) when there is none |
| ShortcutParser.IntentOf | appshortcutscompat/src/main/java/com/ivianuu/appshortcutscompat/AppShortcutParser.java:153-172 | the target is the declared package/class pair only when both are present, else the declaring component. The action defaults to MAIN, the data is present only when declared, and no flags are set yet |
| ShortcutParser.Launchable | appshortcutscompat/src/main/java/com/ivianuu/appshortcutscompat/AppShortcutParser.java:97-100 | `addFlags` sets the three launch flags, keeps every other flag bit, and leaves target, action and data as they were |
| ShortcutParser.ParseIntent | appshortcutscompat/src/main/java/com/ivianuu/appshortcutscompat/AppShortcutParser.java:150-175 | consumes the whole intent element and yields the intent its attributes describe. A tag other than `intent` fails the `require`; on an `intent` tag it throws only Unterminated, and only when the element never closes |
| ShortcutParser.ScanBody | appshortcutscompat/src/main/java/com/ivianuu/appshortcutscompat/AppShortcutParser.java:86-108 | the shortcut's depth loop moves forward, once an intent is found it is never replaced, and it throws nothing but Unterminated |
| ShortcutParser.ScanBodyCloses | appshortcutscompat/src/main/java/com/ivianuu/appshortcutscompat/AppShortcutParser.java:86-108 | the shortcut's depth loop ends at the shortcut's matching end tag |
| ShortcutParser.ScanBodyTerminates | appshortcutscompat/src/main/java/com/ivianuu/appshortcutscompat/AppShortcutParser.java:86-108 | conversely, the shortcut's depth loop succeeds whenever the shortcut has a matching end tag |
| ShortcutParser.ScanBodyFirstIntent | appshortcutscompat/src/main/java/com/ivianuu/appshortcutscompat/AppShortcutParser.java:86-108 | the loop yields the first `intent` of the subtree at any depth, with the launch flags added, or nothing exactly when the subtree holds no `intent` |
| ShortcutParser.SynthesizedId | appshortcutscompat/src/main/java/com/ivianuu/appshortcutscompat/AppShortcutParser.java:112 | a synthesized id is the target's flattened component string, then `_shortcut`, then the decimal digits of the count |
| ShortcutParser.SynthesizedIdsDistinct | appshortcutscompat/src/main/java/com/ivianuu/appshortcutscompat/AppShortcutParser.java:110-113 | ids synthesized for one target at different positions differ |
| ShortcutParser.ResolveHeader | appshortcutscompat/src/main/java/com/ivianuu/appshortcutscompat/AppShortcutParser.java:81-85 | resolving the three labels and the icon fails exactly when one of them cannot be resolved, and otherwise yields the declared id as written, the three label values and the icon drawable |
| ShortcutParser.ParseShortcut | appshortcutscompat/src/main/java/com/ivianuu/appshortcutscompat/AppShortcutParser.java:80-134 | consumes the whole shortcut element and either keeps the list or appends one record. That record is declared by the component, passes the export gate on both components and carries the launch flags, and its id is declared on a `shortcut` tag or synthesized from its index. A label or icon that cannot be resolved fails the pass, and the only other failure is Unterminated |
| ShortcutParser.ParseShortcutFails | appshortcutscompat/src/main/java/com/ivianuu/appshortcutscompat/AppShortcutParser.java:80-134 | a pass throws exactly when a label or the icon cannot be resolved or the shortcut never closes; a shortcut without an intent, or one the export gate rejects, is dropped without an error |
| ShortcutParser.ParseShortcutRecord | appshortcutscompat/src/main/java/com/ivianuu/appshortcutscompat/AppShortcutParser.java:110-134 | an appended record is declared by the component, launches the first intent of the subtree with the launch flags, has the declared or synthesized id, and carries the labels and icon of its own tag |
| ShortcutParser.ShortcutKeptIff | appshortcutscompat/src/main/java/com/ivianuu/appshortcutscompat/AppShortcutParser.java:109-134 | on a pass that succeeds, a shortcut with no intent adds nothing. Otherwise a record is added exactly when the declaring component and the first intent's target are both exported, and it launches that first intent |
| ShortcutParser.ParseShortcutKept | appshortcutscompat/src/main/java/com/ivianuu/appshortcutscompat/AppShortcutParser.java:109-134 | on a pass that succeeds, a record is appended exactly when the subtree has an intent and the declaring component and that intent's target are both exported |
| ShortcutParser.ShortcutLoop | appshortcutscompat/src/main/java/com/ivianuu/appshortcutscompat/AppShortcutParser.java:79-135 | the records already accepted stay a prefix, and every new record satisfies the admission invariant at its index. Any child other than a `shortcut` start tag, or the end of the document, fails the `require`. The exceptions are XmlPullParser, Unterminated, NumberFormat and NotFound, and no other |
| ShortcutParser.KeptCountOrder | appshortcutscompat/src/main/java/com/ivianuu/appshortcutscompat/AppShortcutParser.java:79-135 | a kept `shortcut` child counts before every later position, so kept children get increasing indices in document order |
| ShortcutParser.ShortcutLoopCount | appshortcutscompat/src/main/java/com/ivianuu/appshortcutscompat/AppShortcutParser.java:79-135 | the loop appends exactly one record per kept `shortcut` child of the root that it passes over |
| ShortcutParser.ShortcutLoopPlaced | appshortcutscompat/src/main/java/com/ivianuu/appshortcutscompat/AppShortcutParser.java:79-135 | each kept `shortcut` child yields the record at the index given by how many kept children precede it, and that record is the one its own tag describes |
| ShortcutParser.ShortcutLoopFails | appshortcutscompat/src/main/java/com/ivianuu/appshortcutscompat/AppShortcutParser.java:79-135 | the loop throws only at a top-level position where the document ends, an event other than an end tag or a `shortcut` start tag stands, or a `shortcut` fails to resolve or to close |
| ShortcutParser.ShortcutLoopBreaks | appshortcutscompat/src/main/java/com/ivianuu/appshortcutscompat/AppShortcutParser.java:79-135 | conversely, every such position before the root's end tag makes the loop throw |
| ShortcutParser.Parse | appshortcutscompat/src/main/java/com/ivianuu/appshortcutscompat/AppShortcutParser.java:65-138 | an unknown package gives NameNotFound and an unknown resource NotFound. A root other than `shortcuts` fails the `require`. Every record returned satisfies the admission invariant, and on success an unexported declaring component yields no records. The exceptions are XmlPullParser, Unterminated, NumberFormat, NotFound and NameNotFound, and no other |
| ShortcutParser.ParseContents | appshortcutscompat/src/main/java/com/ivianuu/appshortcutscompat/AppShortcutParser.java:65-138 | the returned list is exactly one record per kept `shortcut` child of the root, in document order, each described by its own tag |
| ShortcutParser.ParseFails | appshortcutscompat/src/main/java/com/ivianuu/appshortcutscompat/AppShortcutParser.java:65-138 | `parse` throws exactly for an unknown package, a missing resource, a root other than `shortcuts`, or a child of the root that breaks the loop; an unexported declaring component therefore never makes it throw |
| Compat.EntryShortcuts | appshortcutscompat/src/main/java/com/ivianuu/appshortcutscompat/AppShortcutsCompat.java:56 | an unknown package gives NameNotFound, and every record parsed for an index entry is declared by that entry's component and passes the export gate |
| Compat.ConcatAll | appshortcutscompat/src/main/java/com/ivianuu/appshortcutscompat/AppShortcutsCompat.java:55-57 | every delivered record belongs to a visited entry and passes the export gate with launch flags set |
| Compat.ConcatAllSucceeds | appshortcutscompat/src/main/java/com/ivianuu/appshortcutscompat/AppShortcutsCompat.java:55-57 | the loop succeeds exactly when every visited entry parses |
| Compat.ConcatAllFirstFailure | appshortcutscompat/src/main/java/com/ivianuu/appshortcutscompat/AppShortcutsCompat.java:55-57 | a failing loop fails with the exception of the first entry, in visiting order, that fails |
| Compat.ConcatAllJoined | appshortcutscompat/src/main/java/com/ivianuu/appshortcutscompat/AppShortcutsCompat.java:55-57 | a successful loop delivers exactly the per-entry lists joined in visiting order |
| Compat.OrderIndependent | appshortcutscompat/src/main/java/com/ivianuu/appshortcutscompat/AppShortcutsCompat.java:54-57 | two enumerations of the index succeed or fail together, and on success deliver the same multiset of records |
| Compat.VisitEntries | appshortcutscompat/src/main/java/com/ivianuu/appshortcutscompat/AppShortcutsCompat.java:55-57 | visits each index key at most once, stops at the first failing entry, and on success has visited all of them, the result being the loop over that order |
| Compat.GetAppShortcuts | appshortcutscompat/src/main/java/com/ivianuu/appshortcutscompat/AppShortcutsCompat.java:44-60 | a null context or package name fails with its `checkNotNull` message, and an unknown package fails with NameNotFound. A failing manifest parse propagates. Otherwise the result is the loop over a repetition-free order of index keys, an empty index yields the empty list, and each delivered record's activity is an attested index entry |
| Scenarios.ExampleMeta | appshortcutscompat/src/main/java/com/ivianuu/appshortcutscompat/AppShortcutPackageParser.java:136-149 | the example's meta-data element sets `.Main` to resource 77 |
| Scenarios.ExampleActivity | appshortcutscompat/src/main/java/com/ivianuu/appshortcutscompat/AppShortcutPackageParser.java:111-134 | the example's activity element consumes its meta-data and indexes `.Main` with resource 77 |
| Scenarios.ExampleIndex | appshortcutscompat/src/main/java/com/ivianuu/appshortcutscompat/AppShortcutPackageParser.java:77-149 | the example manifest, whose one activity `.Main` holds a shortcuts meta-data `@77`, indexes `.Main` with resource 77 |
| Scenarios.ExampleLabels | appshortcutscompat/src/main/java/com/ivianuu/appshortcutscompat/AppShortcutParser.java:177-189 | in the example, icon `@88` is id 88, the literal short label is kept, and absent labels are `None` |
| Scenarios.ExampleIntent | appshortcutscompat/src/main/java/com/ivianuu/appshortcutscompat/AppShortcutParser.java:86-108 | in the example, the shortcut's body yields the VIEW intent targeting `com.x/.Main` with launch flags |
| Scenarios.ExampleRecord | appshortcutscompat/src/main/java/com/ivianuu/appshortcutscompat/AppShortcutParser.java:80-134 | in the example, the shortcut `s1` becomes the record with id `s1`, its literal short label "Open", empty long label and disabled message, the drawable of icon `@88`, and the VIEW intent for `.Main` with launch flags |
| Scenarios.ExampleShortcuts | appshortcutscompat/src/main/java/com/ivianuu/appshortcutscompat/AppShortcutParser.java:65-138 | resource 77 of the example yields exactly that one record |
| Scenarios.ExampleEndToEnd | appshortcutscompat/src/main/java/com/ivianuu/appshortcutscompat/AppShortcutsCompat.java:54-57 | the entry loop over the example's index delivers exactly that one record |
| Scenarios.LastMetaDataWins | appshortcutscompat/src/main/java/com/ivianuu/appshortcutscompat/AppShortcutPackageParser.java:140-146 | of two shortcuts meta-data entries in one activity, the later id is kept |
| Scenarios.TwoMarkersEach | appshortcutscompat/src/main/java/com/ivianuu/appshortcutscompat/AppShortcutPackageParser.java:140-146 | each shortcuts meta-data entry overwrites the component's id with its own |
| Scenarios.FirstIntentWins | appshortcutscompat/src/main/java/com/ivianuu/appshortcutscompat/AppShortcutParser.java:101-103 | of two intents in one shortcut, the first is launched |
| Scenarios.MissingIcon | appshortcutscompat/src/main/java/com/ivianuu/appshortcutscompat/AppShortcutParser.java:85 | a shortcut without `icon`, in resources with no drawable 0, fails with NotFound(0), and so does the whole list |
| Scenarios.SupplementaryLead | appshortcutscompat/src/main/java/com/ivianuu/appshortcutscompat/AppShortcutPackageParser.java:141-146 | a `resource` value "\U{1F600}77" leaves the index unchanged |

## Left out

- `AppShortcutPackageParser.parse`, the reflective wrapper, is not modelled:
  - it adds the package's asset path through `addAssetPath`;
  - it throws a RuntimeException when that returns cookie 0;
  - it opens `AndroidManifest.xml`.
  The manifest's event sequence is part of `Android.InstalledPackage`.
- `createPackageContext`, `getApplicationInfo` and `getPackageInfo` are each a map lookup that fails with NameNotFound. `getAppShortcuts` and the reflective wrapper both look the package up, and both fail in the same way, so the model looks it up once.
- Binary XML decoding and namespaces are left out. A start tag carries only its attributes in the android namespace, as the code reads nothing else.
- `Uri.parse` is left out: the data URI is kept as its text.
- `Integer.parseInt` is modelled for ASCII digits only. Non-ASCII Unicode decimal digits, which Java also accepts, are left out.
- Loops that never end are not modelled. The depth loops ignore END_DOCUMENT, so on a truncated document the code never returns; the model stops with `Unterminated` instead.
- Null values other than the two arguments of `getAppShortcuts` are left out. Examples are a null activities array or a parser returning null attribute maps; every sequence and map here is present.
- `checkNotNull` is modelled only by the message it fails with, not by the Java exception class.
- The iteration order of the index's HashMap is not modelled as any particular order. `Compat.GetAppShortcuts` chooses keys freely and returns the order it used.
- Drawables are opaque handles. Image content is left out.
- The sample application is left out. It lists and launches the shortcuts.
- `parseMeta` and `parseIntent` each begin with a `require`, and their callers only reach them on a `meta-data` or `intent` start tag. The model keeps that check, but it can never fail there.

=== FILE: android.dfy ===
/**
 * The Android platform services the core consumes, reduced to values: a
 * package's resources are lookup tables, its activity list is a sequence,
 * and the device's installed packages are a map. A failed lookup is the
 * exception the platform would throw.
 */
module Android {
  import opened Wrappers
  import opened Platform
  import opened XmlPull

  /** `ComponentName`: a package and a class name, compared structurally. */
  datatype ComponentName = ComponentName(packageName: string, className: string)

  /** `ComponentName.toString()`. */
  function ComponentString(c: ComponentName): string {
    "ComponentInfo{" + c.packageName + "/" + c.className + "}"
  }

  const ACTION_MAIN := "android.intent.action.MAIN"

  const FLAG_ACTIVITY_NEW_TASK: bv32 := 0x1000_0000
  const FLAG_ACTIVITY_CLEAR_TASK: bv32 := 0x0000_8000
  const FLAG_ACTIVITY_TASK_ON_HOME: bv32 := 0x0000_4000

  /** The fields of an `Intent` the parser sets; the data URI is kept as its text. */
  datatype Intent = Intent(component: ComponentName, action: string, data: Option<string>, flags: bv32)

  /** `ActivityInfo`: a declared activity's class name and exported flag. */
  datatype ActivityInfo = ActivityInfo(name: string, exported: bool)

  /** `PackageInfo` as fetched with GET_ACTIVITIES. */
  datatype PackageInfo = PackageInfo(activities: seq<ActivityInfo>)

  /** An opaque handle for a loaded `Drawable`. */
  datatype Drawable = Drawable(handle: nat)

  /** A package's `Resources`: string, drawable and XML resources by id. */
  datatype Resources = Resources(strings: map<int, string>, drawables: map<int, Drawable>, xml: map<int, Document>)

  /** What the device knows about one installed package. */
  datatype InstalledPackage = InstalledPackage(manifest: Document, resources: Resources, info: PackageInfo)

  /** A `Context`: the installed packages by name. */
  datatype Context = Context(packages: map<string, InstalledPackage>)

  function GetString(res: Resources, id: int): Outcome<string>
  {
    if id in res.strings then Success(res.strings[id]) else Failure(NotFound(id))
  }

  function GetDrawable(res: Resources, id: int): Outcome<Drawable>
  {
    if id in res.drawables then Success(res.drawables[id]) else Failure(NotFound(id))
  }

  function GetXml(res: Resources, id: int): Outcome<Document>
  {
    if id in res.xml then Success(res.xml[id]) else Failure(NotFound(id))
  }

  /** `getPackageManager().getPackageInfo(packageName, GET_ACTIVITIES)`. */
  function GetPackageInfo(ctx: Context, packageName: string): Outcome<PackageInfo>
  {
    if packageName in ctx.packages then Success(ctx.packages[packageName].info)
    else Failure(NameNotFound(packageName))
  }
}

=== FILE: app_shortcut.dfy ===
/**
 * `AppShortcut`: the immutable record the shortcut parser emits. The
 * constructor's seven arguments are the datatype's fields and the getters
 * are its destructors (`getId` is `id`, `getActivity` is `activity`, …), so
 * a record keeps exactly the values it was built from and never changes.
 * Strings cannot be null here; the parser's defaulting of absent labels to
 * "" is what the source's non-null annotations rely on.
 */
module AppShortcuts {
  import opened Android

  datatype AppShortcut = AppShortcut(
    id: string,
    intent: Intent,
    activity: ComponentName,
    shortLabel: string,
    longLabel: string,
    disabledMessage: string,
    icon: Drawable)
}

=== FILE: compat.dfy ===
/**
 * The entry point (`AppShortcutsCompat.getAppShortcuts`): index the
 * package's manifest, then concatenate the shortcuts of every index entry.
 *
 * The index is a hash map, so the order in which its entries are visited
 * is not something the program controls. The method below chooses keys
 * freely and returns the order it used; the lemmas show that, when the
 * call succeeds, the shortcuts delivered do not depend on that order
 * beyond their arrangement.
 */
module Compat {
  import opened Wrappers
  import opened Platform
  import opened XmlPull
  import opened Android
  import opened AppShortcuts
  import opened PackageParser
  import ShortcutParser

  predicate Distinct<T(==)>(s: seq<T>) {
    forall i, j | 0 <= i < j < |s| :: s[i] != s[j]
  }

  /** `order` lists only keys of the index. */
  predicate Within(order: seq<ComponentName>, index: Index) {
    forall i | 0 <= i < |order| :: order[i] in index
  }

  /** `order` visits every key of the index exactly once. */
  predicate Enumerates(order: seq<ComponentName>, index: Index) {
    && Distinct(order)
    && Within(order, index)
    && forall c | c in index :: c in order
  }

  /** The shortcuts of the index entry for `c`. */
  function EntryShortcuts(ctx: Context, res: Resources, packageName: string, index: Index, c: ComponentName)
    : (r: Outcome<seq<AppShortcut>>)
    requires c in index
    ensures packageName !in ctx.packages ==> r == Failure(NameNotFound(packageName))
    ensures r.Success? ==> forall s | s in r.value :: s.activity == c && Delivered(ctx, packageName, s)
  {
    var parsed := ShortcutParser.Parse(ctx, res, packageName, c, index[c]);
    assert parsed.Success? ==> forall s | s in parsed.value :: s.activity == c && Delivered(ctx, packageName, s) by {
      if parsed.Success? {
        forall s | s in parsed.value ensures s.activity == c && Delivered(ctx, packageName, s) {
          var i :| 0 <= i < |parsed.value| && parsed.value[i] == s;
          assert ShortcutParser.Admissible(ctx.packages[packageName].info, res.xml[index[c]], c, parsed.value[i], i);
        }
      }
    }
    parsed
  }

  /** A record the package may deliver: both of its components pass the export gate. */
  ghost predicate Delivered(ctx: Context, packageName: string, s: AppShortcut) {
    && packageName in ctx.packages
    && ShortcutParser.IsExported(s.activity, ctx.packages[packageName].info.activities)
    && ShortcutParser.IsExported(s.intent.component, ctx.packages[packageName].info.activities)
    && s.intent.flags == ShortcutParser.LAUNCH_FLAGS
  }

  /**
   * The loop of `getAppShortcuts` over the entries in the given order: the
   * first failing entry's exception ends it, otherwise the lists are
   * concatenated.
   */
  function ConcatAll(ctx: Context, res: Resources, packageName: string, index: Index, order: seq<ComponentName>)
    : (r: Outcome<seq<AppShortcut>>)
    requires Within(order, index)
    ensures r.Success? ==> forall s | s in r.value :: s.activity in order && Delivered(ctx, packageName, s)
    decreases |order|
  {
    if order == [] then Success([])
    else
      var front := order[..|order| - 1];
      var last := order[|order| - 1];
      var done :- ConcatAll(ctx, res, packageName, index, front);
      var more :- EntryShortcuts(ctx, res, packageName, index, last);
      Success(done + more)
  }

  predicate AllSucceed(ctx: Context, res: Resources, packageName: string, index: Index, order: seq<ComponentName>)
    requires Within(order, index)
  {
    forall i | 0 <= i < |order| :: EntryShortcuts(ctx, res, packageName, index, order[i]).Success?
  }

  /** The loop succeeds exactly when every visited entry parses. */
  lemma {:induction false} ConcatAllSucceeds(ctx: Context, res: Resources, packageName: string, index: Index, order: seq<ComponentName>)
    requires Within(order, index)
    ensures ConcatAll(ctx, res, packageName, index, order).Success? <==> AllSucceed(ctx, res, packageName, index, order)
    decreases |order|
  {
    if order != [] {
      var front := order[..|order| - 1];
      ConcatAllSucceeds(ctx, res, packageName, index, front);
      assert forall i | 0 <= i < |front| :: front[i] == order[i];
    }
  }

  /** On failure, the exception is that of the first entry in the order that fails. */
  lemma {:induction false} ConcatAllFirstFailure(ctx: Context, res: Resources, packageName: string, index: Index, order: seq<ComponentName>)
    requires Within(order, index)
    requires ConcatAll(ctx, res, packageName, index, order).Failure?
    ensures exists i | 0 <= i < |order| ::
              && EntryShortcuts(ctx, res, packageName, index, order[i])
                 == Failure(ConcatAll(ctx, res, packageName, index, order).error)
              && forall j | 0 <= j < i :: EntryShortcuts(ctx, res, packageName, index, order[j]).Success?
    decreases |order|
  {
    var front := order[..|order| - 1];
    var n := |order| - 1;
    assert forall i | 0 <= i < |front| :: front[i] == order[i];
    if ConcatAll(ctx, res, packageName, index, front).Failure? {
      ConcatAllFirstFailure(ctx, res, packageName, index, front);
      var i :| 0 <= i < |front|
               && EntryShortcuts(ctx, res, packageName, index, front[i])
                  == Failure(ConcatAll(ctx, res, packageName, index, front).error)
               && forall j | 0 <= j < i :: EntryShortcuts(ctx, res, packageName, index, front[j]).Success?;
      assert order[i] == front[i];
    } else {
      ConcatAllSucceeds(ctx, res, packageName, index, front);
      assert forall j | 0 <= j < n :: EntryShortcuts(ctx, res, packageName, index, order[j]).Success? by {
        forall j | 0 <= j < n ensures EntryShortcuts(ctx, res, packageName, index, order[j]).Success? {
          assert front[j] == order[j];
        }
      }
    }
  }

  /** The lists of a table of per-entry results, concatenated in the given order. */
  function Joined<K, V>(order: seq<K>, table: K -> seq<V>): seq<V>
    decreases |order|
  {
    if order == [] then []
    else Joined(order[..|order| - 1], table) + table(order[|order| - 1])
  }

  /** The successful entry results, by component; entries outside the index or failing have none. */
  ghost function Results(ctx: Context, res: Resources, packageName: string, index: Index): ComponentName -> seq<AppShortcut> {
    c => if c in index && EntryShortcuts(ctx, res, packageName, index, c).Success?
         then EntryShortcuts(ctx, res, packageName, index, c).value
         else []
  }

  /** A successful loop delivers exactly the per-entry lists joined in the visiting order. */
  lemma {:induction false} ConcatAllJoined(ctx: Context, res: Resources, packageName: string, index: Index, order: seq<ComponentName>)
    requires Within(order, index)
    requires ConcatAll(ctx, res, packageName, index, order).Success?
    ensures ConcatAll(ctx, res, packageName, index, order).value == Joined(order, Results(ctx, res, packageName, index))
    decreases |order|
  {
    ConcatAllSucceeds(ctx, res, packageName, index, order);
    if order != [] {
      var front := order[..|order| - 1];
      assert forall i | 0 <= i < |front| :: front[i] == order[i];
      ConcatAllJoined(ctx, res, packageName, index, front);
    }
  }

  /** Joining distributes over concatenation of orders. */
  lemma {:induction false} JoinedAppend<K, V>(a: seq<K>, b: seq<K>, table: K -> seq<V>)
    ensures Joined(a + b, table) == Joined(a, table) + Joined(b, table)
    decreases |b|
  {
    if b == [] {
      assert a + b == a;
    } else {
      var front := b[..|b| - 1];
      JoinedAppend(a, front, table);
      assert (a + b)[..|a + b| - 1] == a + front;
      assert (a + b)[|a + b| - 1] == b[|b| - 1];
    }
  }

  /** Taking one entry out of the order takes its list out of the bag. */
  lemma JoinedRemove<K, V>(order: seq<K>, table: K -> seq<V>, i: nat)
    requires i < |order|
    ensures multiset(Joined(order, table)) == multiset(Joined(order[..i] + order[i + 1..], table)) + multiset(table(order[i]))
  {
    var x := order[i];
    var before, after := order[..i], order[i + 1..];
    assert order == before + ([x] + after);
    assert [x][..0] == [];
    assert Joined([x], table) == table(x);
    JoinedAppend([x], after, table);
    JoinedAppend(before, [x] + after, table);
    JoinedAppend(before, after, table);
    var jb, ja, t := Joined(before, table), Joined(after, table), table(x);
    assert Joined(order, table) == jb + (t + ja);
    assert multiset(jb + (t + ja)) == multiset(jb) + multiset(t) + multiset(ja);
  }

  lemma MultisetRemove<K>(s: seq<K>, i: nat)
    requires i < |s|
    ensures multiset(s) == multiset(s[..i] + s[i + 1..]) + multiset{s[i]}
  {
    assert s == s[..i] + [s[i]] + s[i + 1..];
  }

  lemma MultisetCancel<K>(a: multiset<K>, b: multiset<K>, x: K)
    requires a + multiset{x} == b + multiset{x}
    ensures a == b
  {
    forall y ensures a[y] == b[y] {
      assert (a + multiset{x})[y] == (b + multiset{x})[y];
    }
  }

  /** Orders that visit the same entries equally often join to the same bag. */
  lemma {:induction false} JoinedReorder<K, V>(o1: seq<K>, o2: seq<K>, table: K -> seq<V>)
    requires multiset(o1) == multiset(o2)
    ensures multiset(Joined(o1, table)) == multiset(Joined(o2, table))
    decreases |o1|
  {
    if o1 != [] {
      var front := o1[..|o1| - 1];
      var last := o1[|o1| - 1];
      assert o1 == front + [last];
      assert last in multiset(o2);
      var i :| 0 <= i < |o2| && o2[i] == last;
      JoinedRemove(o2, table, i);
      var rest := o2[..i] + o2[i + 1..];
      MultisetRemove(o2, i);
      assert multiset(o1) == multiset(front) + multiset{last};
      MultisetCancel(multiset(front), multiset(rest), last);
      JoinedReorder(front, rest, table);
    }
  }

  lemma {:induction false} DistinctCount<T>(s: seq<T>, c: T)
    requires Distinct(s)
    ensures multiset(s)[c] == if c in s then 1 else 0
    decreases |s|
  {
    if s != [] {
      var front := s[..|s| - 1];
      assert s == front + [s[|s| - 1]];
      assert Distinct(front);
      assert s[|s| - 1] !in front;
      DistinctCount(front, c);
    }
  }

  /** Two enumerations of the same index are permutations of each other. */
  lemma EnumerationsPermute(o1: seq<ComponentName>, o2: seq<ComponentName>, index: Index)
    requires Enumerates(o1, index) && Enumerates(o2, index)
    ensures multiset(o1) == multiset(o2)
  {
    forall c ensures multiset(o1)[c] == multiset(o2)[c] {
      DistinctCount(o1, c);
      DistinctCount(o2, c);
    }
  }

  /**
   * Whichever order the index is enumerated in, the loop succeeds for all
   * or for none, and a successful run delivers the same shortcuts, each as
   * often, only arranged differently.
   */
  lemma OrderIndependent(ctx: Context, res: Resources, packageName: string, index: Index, o1: seq<ComponentName>, o2: seq<ComponentName>)
    requires Enumerates(o1, index) && Enumerates(o2, index)
    ensures ConcatAll(ctx, res, packageName, index, o1).Success? <==> ConcatAll(ctx, res, packageName, index, o2).Success?
    ensures ConcatAll(ctx, res, packageName, index, o1).Success? ==>
              multiset(ConcatAll(ctx, res, packageName, index, o1).value)
              == multiset(ConcatAll(ctx, res, packageName, index, o2).value)
  {
    EnumerationsPermute(o1, o2, index);
    ConcatAllSucceeds(ctx, res, packageName, index, o1);
    ConcatAllSucceeds(ctx, res, packageName, index, o2);
    if AllSucceed(ctx, res, packageName, index, o1) {
      ConcatAllJoined(ctx, res, packageName, index, o1);
      ConcatAllJoined(ctx, res, packageName, index, o2);
      JoinedReorder(o1, o2, Results(ctx, res, packageName, index));
    }
  }

  /**
   * `getAppShortcuts`. Absent arguments stand for null. `order` is the
   * sequence of index entries the loop visited: all of them on success, up
   * to and including the failing one otherwise.
   */
  method GetAppShortcuts(context: Option<Context>, packageName: Option<string>)
    returns (r: Outcome<seq<AppShortcut>>, order: seq<ComponentName>)
    ensures context.None? ==> r == Failure(NullArgument("context == null"))
    ensures context.Some? && packageName.None? ==> r == Failure(NullArgument("packageName == null"))
    ensures context.Some? && packageName.Some? && packageName.value !in context.value.packages ==>
              r == Failure(NameNotFound(packageName.value))
    ensures context.Some? && packageName.Some? && packageName.value in context.value.packages ==>
              var ctx, pkg := context.value, packageName.value;
              var installed := ctx.packages[pkg];
              var index := ParseManifest(installed.manifest, pkg);
              && (index.Failure? ==> r == Failure(index.error))
              && (index.Success? ==>
                    && Distinct(order)
                    && Within(order, index.value)
                    && r == ConcatAll(ctx, installed.resources, pkg, index.value, order)
                    && (r.Success? ==> Enumerates(order, index.value))
                    && (index.value == map[] ==> r == Success([])))
    ensures r.Success? ==>
              && context.Some? && packageName.Some? && packageName.value in context.value.packages
              && ParseManifest(context.value.packages[packageName.value].manifest, packageName.value).Success?
              && (var installed := context.value.packages[packageName.value];
                  var index := ParseManifest(installed.manifest, packageName.value).value;
                  forall s | s in r.value ::
                    && s.activity in index
                    && Attributed(installed.manifest, packageName.value, s.activity, index[s.activity])
                    && Delivered(context.value, packageName.value, s))
  {
    order := [];
    if context.None? {
      return Failure(NullArgument("context == null")), order;
    }
    if packageName.None? {
      return Failure(NullArgument("packageName == null")), order;
    }
    var ctx, pkg := context.value, packageName.value;
    if pkg !in ctx.packages {
      return Failure(NameNotFound(pkg)), order;
    }
    var installed := ctx.packages[pkg];
    var parsed := ParseManifest(installed.manifest, pkg);
    if parsed.Failure? {
      return Failure(parsed.error), order;
    }
    var index := parsed.value;
    r, order := VisitEntries(ctx, installed.resources, pkg, index);
    assert r.Success? ==> forall s | s in r.value :: s.activity in index;
  }

  lemma DistinctSnoc<T>(s: seq<T>, x: T)
    requires Distinct(s) && x !in s
    ensures Distinct(s + [x])
  {
  }

  /** One more visited entry: its exception, or its list appended. */
  lemma ConcatAllSnoc(ctx: Context, res: Resources, packageName: string, index: Index, order: seq<ComponentName>, c: ComponentName)
    requires Within(order, index) && c in index
    ensures Within(order + [c], index)
    ensures ConcatAll(ctx, res, packageName, index, order + [c]) ==
              match ConcatAll(ctx, res, packageName, index, order)
              case Failure(e) => Failure(e)
              case Success(done) =>
                match EntryShortcuts(ctx, res, packageName, index, c)
                case Failure(e) => Failure(e)
                case Success(more) => Success(done + more)
  {
    assert (order + [c])[..|order|] == order;
  }

  /** The loop of `getAppShortcuts` over the entries of the index, in an order of its choosing. */
  method VisitEntries(ctx: Context, res: Resources, packageName: string, index: Index)
    returns (r: Outcome<seq<AppShortcut>>, order: seq<ComponentName>)
    ensures Distinct(order) && Within(order, index)
    ensures r == ConcatAll(ctx, res, packageName, index, order)
    ensures r.Success? ==> Enumerates(order, index)
    ensures r.Failure? ==> order != [] && EntryShortcuts(ctx, res, packageName, index, order[|order| - 1]) == r
  {
    order := [];
    var shortcuts: seq<AppShortcut> := [];
    var remaining := index.Keys;
    while remaining != {}
      invariant remaining <= index.Keys
      invariant Distinct(order) && Within(order, index)
      invariant forall c | c in index :: c in remaining || c in order
      invariant forall c | c in order :: c !in remaining
      invariant ConcatAll(ctx, res, packageName, index, order) == Success(shortcuts)
      decreases |remaining|
    {
      var c :| c in remaining;
      var part := EntryShortcuts(ctx, res, packageName, index, c);
      ConcatAllSnoc(ctx, res, packageName, index, order, c);
      DistinctSnoc(order, c);
      order := order + [c];
      if part.Failure? {
        return Failure(part.error), order;
      }
      shortcuts := shortcuts + part.value;
      remaining := remaining - {c};
    }
    return Success(shortcuts), order;
  }
}

=== FILE: package_parser.dfy ===
/**
 * The manifest scanner (`AppShortcutPackageParser`): walks a package's
 * compiled manifest and builds the index from each activity or
 * activity-alias component to the resource id named by its
 * `android.app.shortcuts` meta-data.
 */
module PackageParser {
  import opened Wrappers
  import opened Platform
  import opened XmlPull
  import opened Android

  const TAG_MANIFEST := "manifest"
  const TAG_APPLICATION := "application"
  const TAG_ACTIVITY := "activity"
  const TAG_ACTIVITY_ALIAS := "activity-alias"
  const TAG_META_DATA := "meta-data"
  const ATTR_NAME := "name"
  const ATTR_RESOURCE := "resource"
  const META_APP_SHORTCUTS := "android.app.shortcuts"

  /** The manifest index: the shortcuts resource id recorded for each component. */
  type Index = map<ComponentName, int>

  predicate IsActivityTag(name: string) {
    name == TAG_ACTIVITY || name == TAG_ACTIVITY_ALIAS
  }

  /** `getName()` of the event is "application" (a start or an end tag). */
  predicate NamesApplication(e: Event) {
    (e.StartTag? && e.name == TAG_APPLICATION) || (e.EndTag? && e.name == TAG_APPLICATION)
  }

  predicate IsShortcutsMeta(attrs: map<string, string>) {
    Attr(attrs, ATTR_NAME) == Some(META_APP_SHORTCUTS)
  }

  /** `m2` differs from `m1` at most in the entry for `c`, and keeps every key of `m1`. */
  ghost predicate KeepsOthers(m1: Index, m2: Index, c: ComponentName) {
    && m1.Keys <= m2.Keys <= m1.Keys + {c}
    && forall k | k in m1 && k != c :: m2[k] == m1[k]
  }

  /** `m2` holds an entry for `c` that `m1` did not hold. */
  ghost predicate ChangedAt(m1: Index, m2: Index, c: ComponentName) {
    c in m2 && !(c in m1 && m2[c] == m1[c])
  }

  /**
   * `doc[p]` is an `android.app.shortcuts` meta-data start tag whose
   * `resource` value, without its first UTF-16 unit, parses as an int.
   */
  ghost predicate ParsableMarker(doc: Document, p: nat) {
    && p < |doc|
    && IsStart(doc[p], TAG_META_DATA)
    && IsShortcutsMeta(doc[p].attrs)
    && ATTR_RESOURCE in doc[p].attrs
    && |doc[p].attrs[ATTR_RESOURCE]| > 0
    && ResourceId(doc[p].attrs[ATTR_RESOURCE]).Some?
  }

  /** The resource id a parsable marker names. */
  ghost function MarkerId(doc: Document, p: nat): int
    requires ParsableMarker(doc, p)
  {
    ResourceId(doc[p].attrs[ATTR_RESOURCE]).value
  }

  ghost predicate ShortcutsMetaAt(doc: Document, p: nat, id: int) {
    ParsableMarker(doc, p) && MarkerId(doc, p) == id
  }

  /** Some shortcuts meta-data for `id` lies strictly between positions `a` and `e`. */
  ghost predicate MetaWithin(doc: Document, a: nat, e: nat, id: int) {
    exists p | a < p < e :: ShortcutsMetaAt(doc, p, id)
  }

  /** `doc[a]` is the start tag of an activity or activity-alias named `className`. */
  ghost predicate ActivityAt(doc: Document, a: nat, className: string) {
    a < |doc| && doc[a].StartTag? && IsActivityTag(doc[a].name) && Attr(doc[a].attrs, ATTR_NAME) == Some(className)
  }

  /** `doc[a]` is a start tag whose element closes with the end tag `doc[e - 1]`. */
  ghost predicate ElementSpan(doc: Document, a: nat, e: nat) {
    a < |doc| && doc[a].StartTag? && MatchingEnd(doc, a + 1, e)
  }

  /** `doc[a]` is a start tag at the top level of the element whose content begins at `s`. */
  ghost predicate ChildOf(doc: Document, s: nat, a: nat) {
    Open(doc, s, a, 1) && a < |doc| && doc[a].StartTag?
  }

  /**
   * The entry `k -> id` comes from a shortcuts meta-data inside a direct
   * child activity named `k.className` of the element whose content begins
   * at `s`, in package `packageName`.
   */
  ghost predicate AttributedIn(doc: Document, s: nat, packageName: string, k: ComponentName, id: int) {
    && k.packageName == packageName
    && exists a: nat, e: nat ::
         ChildOf(doc, s, a) && ActivityAt(doc, a, k.className) && ElementSpan(doc, a, e) && MetaWithin(doc, a, e, id)
  }

  /** `doc[p]` lies inside a meta-data element whose start tag is at or after `s`. */
  ghost predicate InsideMeta(doc: Document, s: nat, p: nat) {
    exists q: nat, e: nat | s <= q < p < e :: ElementSpan(doc, q, e) && IsStart(doc[q], TAG_META_DATA)
  }

  /**
   * A shortcuts marker the depth loop of an activity whose content begins
   * at `s` reads: meta-data elements are consumed whole, so one nested in
   * another meta-data element is never read.
   */
  ghost predicate Marker(doc: Document, s: nat, p: nat) {
    ParsableMarker(doc, p) && !InsideMeta(doc, s, p)
  }

  /** `doc[p]` is the last marker read in `[a, b)`. */
  ghost predicate LastMarkerIn(doc: Document, s: nat, a: nat, b: nat, p: nat) {
    && a <= p < b
    && Marker(doc, s, p)
    && forall p': nat | p < p' < b :: !Marker(doc, s, p')
  }

  ghost predicate NoMarkerIn(doc: Document, s: nat, a: nat, b: nat) {
    forall p: nat | a <= p < b :: !Marker(doc, s, p)
  }

  /** No meta-data element that starts in `[s, pos)` is still open at `pos`. */
  ghost predicate NoOpenMeta(doc: Document, s: nat, pos: nat) {
    forall q: nat, e: nat | s <= q < pos && ElementSpan(doc, q, e) && IsStart(doc[q], TAG_META_DATA) :: e <= pos
  }

  /** `m1` and `m2` agree on the entry for `c`, including its absence. */
  predicate SameEntry(m1: Index, m2: Index, c: ComponentName) {
    (c in m1 <==> c in m2) && (c in m1 ==> m1[c] == m2[c])
  }

  /**
   * The loop over the children of `application`, started at `pos` on the
   * level of the content that begins at `s`, reads the start tag `doc[a]`:
   * every event it reads before `doc[a]` is a start tag as well.
   */
  ghost predicate ReachedFrom(doc: Document, s: nat, pos: nat, a: nat) {
    && pos <= a < |doc|
    && Open(doc, s, a, 1)
    && doc[a].StartTag?
    && forall j | pos <= j < a && Open(doc, s, j, 1) :: doc[j].StartTag?
  }

  /** A marker of the activity element whose start tag is `doc[a]`. */
  ghost predicate ActivityMarker(doc: Document, a: nat, p: nat) {
    Marker(doc, a + 1, p)
  }

  /**
   * `doc[p]` is a marker for component `k`: it is read inside an activity
   * named `k.className` that the children loop reads from `pos` on.
   */
  ghost predicate KeyMarker(doc: Document, s: nat, pos: nat, k: ComponentName, p: nat) {
    exists a: nat, e: nat ::
      ReachedFrom(doc, s, pos, a) && ActivityAt(doc, a, k.className) && ElementSpan(doc, a, e) && a < p < e && ActivityMarker(doc, a, p)
  }

  /** `doc[p]` is the last marker for `k` the children loop reads from `pos` on. */
  ghost predicate LastKeyMarker(doc: Document, s: nat, pos: nat, k: ComponentName, p: nat) {
    KeyMarker(doc, s, pos, k, p) && forall p': nat | p < p' :: !KeyMarker(doc, s, pos, k, p')
  }

  /**
   * `doc[p]` is the first event of the loop before `application`, started
   * at `pos`, that names `application`; every event it reads before is a
   * start tag with another name.
   */
  ghost predicate FirstApplicationAt(doc: Document, s: nat, pos: nat, p: nat) {
    && pos <= p < |doc|
    && Open(doc, s, p, 1)
    && NamesApplication(doc[p])
    && forall j | pos <= j < p && Open(doc, s, j, 1) :: doc[j].StartTag? && doc[j].name != TAG_APPLICATION
  }

  /** The content of the `application` element found at the manifest's top level begins at `s`. */
  ghost predicate ApplicationAt(doc: Document, s: nat) {
    2 < s <= |doc| && NamesApplication(doc[s - 1]) && Open(doc, 2, s - 1, 1)
  }

  /** The index entry `k -> id` is justified by the `application` element the manifest scan stops on. */
  ghost predicate Attributed(doc: Document, packageName: string, k: ComponentName, id: int) {
    && 2 <= |doc|
    && FindApplication(doc, 2).Success?
    && AttributedIn(doc, FindApplication(doc, 2).value, packageName, k, id)
  }

  /**
   * `Integer.parseInt(v.substring(1))`, with the NumberFormatException as
   * `None`. A string here is a sequence of code points, while `substring`
   * counts UTF-16 units: a first character above U+FFFF is two units, and
   * dropping one leaves a lone low surrogate, which is no digit, so nothing
   * parses.
   */
  function ResourceId(v: string): Option<int>
    requires v != ""
  {
    if v[0] <= '\U{FFFF}' then ParseInt(v[1..]) else None
  }

  /**
   * The try block of `parseMeta`: `resource` minus its first UTF-16 unit is
   * parsed and put for `c`. Only the NumberFormatException is caught; an
   * absent or empty attribute fails.
   */
  function PutShortcutsId(attrs: map<string, string>, c: ComponentName, m: Index): (r: Outcome<Index>)
    ensures ATTR_RESOURCE !in attrs ==> r == Failure(NullPointer)
    ensures ATTR_RESOURCE in attrs && attrs[ATTR_RESOURCE] == "" ==> r == Failure(IndexOutOfBounds)
    ensures ATTR_RESOURCE in attrs && attrs[ATTR_RESOURCE] != "" ==> r.Success?
    ensures r.Success? ==> KeepsOthers(m, r.value, c)
    ensures r.Success? && attrs[ATTR_RESOURCE][0] > '\U{FFFF}' ==> r.value == m
    ensures r.Success? && attrs[ATTR_RESOURCE][0] <= '\U{FFFF}' && ParseInt(attrs[ATTR_RESOURCE][1..]).None? ==> r.value == m
    ensures r.Success? && attrs[ATTR_RESOURCE][0] <= '\U{FFFF}' && ParseInt(attrs[ATTR_RESOURCE][1..]).Some? ==>
              c in r.value && r.value[c] == ParseInt(attrs[ATTR_RESOURCE][1..]).value
  {
    if ATTR_RESOURCE !in attrs then Failure(NullPointer)
    else if attrs[ATTR_RESOURCE] == "" then Failure(IndexOutOfBounds)
    else match ResourceId(attrs[ATTR_RESOURCE])
      case Some(id) => Success(m[c := id])
      case None => Success(m)
  }

  /**
   * A `resource` value written as any one character of the Basic
   * Multilingual Plane followed by the decimal form of an int records that
   * int; the leading character is dropped unchecked.
   */
  lemma ShortcutsIdRoundTrip(attrs: map<string, string>, c: ComponentName, m: Index, lead: char, n: int)
    requires INT_MIN <= n <= INT_MAX && lead <= '\U{FFFF}'
    requires ATTR_RESOURCE in attrs && attrs[ATTR_RESOURCE] == [lead] + IntToString(n)
    ensures PutShortcutsId(attrs, c, m) == Success(m[c := n])
  {
    ParseIntRoundTrip(n);
    assert attrs[ATTR_RESOURCE][1..] == IntToString(n);
  }

  /** A leading character above U+FFFF leaves the index as it was, whatever follows it. */
  lemma SupplementaryLeadIgnored(attrs: map<string, string>, c: ComponentName, m: Index, lead: char, rest: string)
    requires lead > '\U{FFFF}'
    requires ATTR_RESOURCE in attrs && attrs[ATTR_RESOURCE] == [lead] + rest
    ensures PutShortcutsId(attrs, c, m) == Success(m)
  {
  }

  /** `parseMeta`; the meta-data start tag is `doc[pos - 1]`. */
  function ParseMeta(doc: Document, pos: nat, c: ComponentName, m: Index): (r: Outcome<(nat, Index)>)
    requires 0 < pos <= |doc| && doc[pos - 1].StartTag?
    ensures r.Success? ==> MatchingEnd(doc, pos, r.value.0)
    ensures r.Success? ==> KeepsOthers(m, r.value.1, c)
    ensures r.Success? && ChangedAt(m, r.value.1, c) ==> ShortcutsMetaAt(doc, pos - 1, r.value.1[c])
    ensures r.Success? && ParsableMarker(doc, pos - 1) ==> r.value.1 == m[c := MarkerId(doc, pos - 1)]
    ensures r.Success? && !ParsableMarker(doc, pos - 1) ==> r.value.1 == m
    ensures !IsStart(doc[pos - 1], TAG_META_DATA) ==> r == Failure(XmlPullParser)
    ensures IsStart(doc[pos - 1], TAG_META_DATA) && IsShortcutsMeta(doc[pos - 1].attrs) ==>
              && (ATTR_RESOURCE !in doc[pos - 1].attrs ==> r == Failure(NullPointer))
              && (ATTR_RESOURCE in doc[pos - 1].attrs && doc[pos - 1].attrs[ATTR_RESOURCE] == "" ==> r == Failure(IndexOutOfBounds))
    ensures IsStart(doc[pos - 1], TAG_META_DATA) && r.Failure? ==>
              || (IsShortcutsMeta(doc[pos - 1].attrs) && ATTR_RESOURCE !in doc[pos - 1].attrs && r.error == NullPointer)
              || (IsShortcutsMeta(doc[pos - 1].attrs) && ATTR_RESOURCE in doc[pos - 1].attrs && doc[pos - 1].attrs[ATTR_RESOURCE] == ""
                  && r.error == IndexOutOfBounds)
              || r.error == Unterminated
  {
    var attrs := doc[pos - 1].attrs;
    if doc[pos - 1].name != TAG_META_DATA then Failure(XmlPullParser)
    else
      var m' :- if IsShortcutsMeta(attrs) then PutShortcutsId(attrs, c, m) else Success(m);
      var q :- Skip(doc, pos);
      Success((q, m'))
  }

  /**
   * `parseMeta` throws exactly on a shortcuts meta-data whose `resource` is
   * absent or empty, or on one that never closes: an unparsable id and
   * every other meta-data are passed over.
   */
  lemma ParseMetaFails(doc: Document, pos: nat, c: ComponentName, m: Index)
    requires 0 < pos <= |doc| && IsStart(doc[pos - 1], TAG_META_DATA)
    ensures ParseMeta(doc, pos, c, m).Failure? <==>
              || (IsShortcutsMeta(doc[pos - 1].attrs) && (ATTR_RESOURCE !in doc[pos - 1].attrs || doc[pos - 1].attrs[ATTR_RESOURCE] == ""))
              || !Closes(doc, pos)
  {
  }

  /** The depth loop of `parseActivity` for component `c`. */
  function ScanActivity(doc: Document, pos: nat, c: ComponentName, depth: nat, m: Index): (r: Outcome<(nat, Index)>)
    requires pos <= |doc| && 0 < depth
    ensures r.Success? ==> pos < r.value.0 <= |doc|
    ensures r.Success? ==> KeepsOthers(m, r.value.1, c)
    ensures r.Success? && ChangedAt(m, r.value.1, c) ==>
              exists p | pos <= p < r.value.0 :: ShortcutsMetaAt(doc, p, r.value.1[c])
    ensures r.Failure? ==> r.error == NullPointer || r.error == IndexOutOfBounds || r.error == Unterminated
    decreases |doc| - pos
  {
    if pos == |doc| then Failure(Unterminated)
    else match doc[pos]
      case EndTag(_) =>
        if depth == 1 then Success((pos + 1, m)) else ScanActivity(doc, pos + 1, c, depth - 1, m)
      case StartTag(name, _) =>
        if name == TAG_META_DATA then
          var step :- ParseMeta(doc, pos + 1, c, m);
          var r := ScanActivity(doc, step.0, c, depth, step.1);
          assert r.Success? && ChangedAt(m, r.value.1, c) && !ChangedAt(step.1, r.value.1, c)
                   ==> ShortcutsMetaAt(doc, pos, r.value.1[c]);
          r
        else
          ScanActivity(doc, pos + 1, c, depth + 1, m)
      case _ => ScanActivity(doc, pos + 1, c, depth, m)
  }

  /** ScanActivity stops exactly at the end tag that closes the element it started in. */
  lemma {:induction false} ScanActivityCloses(doc: Document, s: nat, pos: nat, c: ComponentName, depth: nat, m: Index)
    requires 0 < depth && Open(doc, s, pos, depth)
    requires ScanActivity(doc, pos, c, depth, m).Success?
    ensures MatchingEnd(doc, s, ScanActivity(doc, pos, c, depth, m).value.0)
    decreases |doc| - pos
  {
    match doc[pos]
    case EndTag(_) =>
      if depth == 1 {
        CloseStep(doc, s, pos);
      } else {
        OpenStep(doc, s, pos, depth);
        ScanActivityCloses(doc, s, pos + 1, c, depth - 1, m);
      }
    case StartTag(name, _) =>
      if name == TAG_META_DATA {
        var step := ParseMeta(doc, pos + 1, c, m).value;
        assert ScanActivity(doc, pos, c, depth, m) == ScanActivity(doc, step.0, c, depth, step.1);
        OpenAcrossElement(doc, s, pos, depth, step.0);
        ScanActivityCloses(doc, s, step.0, c, depth, step.1);
      } else {
        OpenStep(doc, s, pos, depth);
        ScanActivityCloses(doc, s, pos + 1, c, depth + 1, m);
      }
    case StartDocument =>
      OpenStep(doc, s, pos, depth);
      ScanActivityCloses(doc, s, pos + 1, c, depth, m);
    case Text =>
      OpenStep(doc, s, pos, depth);
      ScanActivityCloses(doc, s, pos + 1, c, depth, m);
  }

  /** Reading an event that is not a meta-data start tag opens no meta-data element. */
  lemma NoOpenMetaStep(doc: Document, s: nat, pos: nat)
    requires NoOpenMeta(doc, s, pos) && s <= pos < |doc| && !IsStart(doc[pos], TAG_META_DATA)
    ensures NoOpenMeta(doc, s, pos + 1)
  {
  }

  /** Consuming a whole meta-data element leaves none open. */
  lemma NoOpenMetaAcross(doc: Document, s: nat, pos: nat, q: nat)
    requires NoOpenMeta(doc, s, pos) && s <= pos && ElementSpan(doc, pos, q)
    ensures NoOpenMeta(doc, s, q)
  {
    forall q': nat, e': nat | s <= q' < q && ElementSpan(doc, q', e') && IsStart(doc[q'], TAG_META_DATA)
      ensures e' <= q
    {
      if q' == pos {
        MatchingEndUnique(doc, pos + 1, e', q);
      } else if pos < q' {
        NestedWithin(doc, pos + 1, q, q', e');
      }
    }
  }

  /**
   * Over `[a, b)` the entry for `c` ends as the last marker read sets it,
   * and unchanged when there is none.
   */
  ghost predicate RecordsLastMarker(doc: Document, s: nat, a: nat, b: nat, c: ComponentName, m: Index, m': Index) {
    && (forall p: nat | LastMarkerIn(doc, s, a, b, p) :: m' == m[c := MarkerId(doc, p)])
    && (NoMarkerIn(doc, s, a, b) ==> m' == m)
  }

  /** An event that is not a marker does not change which marker is the last. */
  lemma PlainStepLast(doc: Document, s: nat, pos: nat, e: nat, c: ComponentName, m: Index, m': Index)
    requires pos < e && !Marker(doc, s, pos)
    requires RecordsLastMarker(doc, s, pos + 1, e, c, m, m')
    ensures RecordsLastMarker(doc, s, pos, e, c, m, m')
  {
  }

  /** A meta-data element read whole: its start tag may be a marker, nothing inside it is. */
  lemma MetaStepLast(doc: Document, s: nat, pos: nat, q: nat, e: nat, c: ComponentName, m: Index, m1: Index, m': Index)
    requires s <= pos && NoOpenMeta(doc, s, pos) && ElementSpan(doc, pos, q) && IsStart(doc[pos], TAG_META_DATA) && q < e
    requires ParsableMarker(doc, pos) ==> m1 == m[c := MarkerId(doc, pos)]
    requires !ParsableMarker(doc, pos) ==> m1 == m
    requires RecordsLastMarker(doc, s, q, e, c, m1, m')
    ensures RecordsLastMarker(doc, s, pos, e, c, m, m')
  {
    forall p: nat | pos < p < q ensures InsideMeta(doc, s, p) {
      assert s <= pos < p < q;
    }
    assert Marker(doc, s, pos) == ParsableMarker(doc, pos);
  }

  /**
   * Each marker ScanActivity reads overwrites the entry for `c`, so the
   * last one wins; without a marker the index is unchanged.
   */
  lemma {:induction false} ScanActivityLast(doc: Document, s: nat, pos: nat, c: ComponentName, depth: nat, m: Index, e: nat, m': Index)
    requires 0 < depth && Open(doc, s, pos, depth) && NoOpenMeta(doc, s, pos)
    requires ScanActivity(doc, pos, c, depth, m) == Success((e, m'))
    ensures RecordsLastMarker(doc, s, pos, e, c, m, m')
    decreases |doc| - pos
  {
    if doc[pos].EndTag? && depth == 1 {
    } else if IsStart(doc[pos], TAG_META_DATA) {
      var (q, m1) := ParseMeta(doc, pos + 1, c, m).value;
      assert ScanActivity(doc, q, c, depth, m1) == Success((e, m'));
      OpenAcrossElement(doc, s, pos, depth, q);
      NoOpenMetaAcross(doc, s, pos, q);
      ScanActivityLast(doc, s, q, c, depth, m1, e, m');
      MetaStepLast(doc, s, pos, q, e, c, m, m1, m');
    } else {
      var depth' := depth + Weight(doc[pos]);
      OpenStep(doc, s, pos, depth);
      NoOpenMetaStep(doc, s, pos);
      assert ScanActivity(doc, pos + 1, c, depth', m) == Success((e, m'));
      ScanActivityLast(doc, s, pos + 1, c, depth', m, e, m');
      PlainStepLast(doc, s, pos, e, c, m, m');
    }
  }

  /** `parseActivity`; the activity's start tag is `doc[pos - 1]`. */
  function ParseActivity(doc: Document, pos: nat, packageName: string, m: Index): (r: Outcome<(nat, Index)>)
    requires 0 < pos <= |doc| && doc[pos - 1].StartTag?
    ensures r.Success? ==> MatchingEnd(doc, pos, r.value.0)
    ensures r.Success? && ATTR_NAME !in doc[pos - 1].attrs ==> r.value.1 == m
    ensures r.Success? && ATTR_NAME in doc[pos - 1].attrs ==>
              var c := ComponentName(packageName, doc[pos - 1].attrs[ATTR_NAME]);
              && KeepsOthers(m, r.value.1, c)
              && (ChangedAt(m, r.value.1, c) ==> MetaWithin(doc, pos - 1, r.value.0, r.value.1[c]))
              && (forall p: nat | LastMarkerIn(doc, pos, pos, r.value.0, p) :: r.value.1 == m[c := MarkerId(doc, p)])
              && (NoMarkerIn(doc, pos, pos, r.value.0) ==> r.value.1 == m)
    ensures r.Failure? ==> r.error == NullPointer || r.error == IndexOutOfBounds || r.error == Unterminated
    ensures ATTR_NAME !in doc[pos - 1].attrs && r.Failure? ==> r.error == Unterminated && !Closes(doc, pos)
  {
    var attrs := doc[pos - 1].attrs;
    if ATTR_NAME !in attrs then
      var q :- Skip(doc, pos);
      Success((q, m))
    else
      var c := ComponentName(packageName, attrs[ATTR_NAME]);
      var r := ScanActivity(doc, pos, c, 1, m);
      OpenStart(doc, pos);
      if r.Success? then
        ScanActivityCloses(doc, pos, pos, c, 1, m);
        ScanActivityLast(doc, pos, pos, c, 1, m, r.value.0, r.value.1);
        r
      else
        r
  }

  /**
   * `doc[p]` is a shortcuts meta-data that the depth loop of the activity
   * whose content begins at `s` reads, and whose `resource` is absent or
   * empty, so `parseMeta` throws on it.
   */
  ghost predicate BrokenMarker(doc: Document, s: nat, p: nat) {
    && s <= p < |doc|
    && Open(doc, s, p, 1 + DepthAt(doc, s, p))
    && !InsideMeta(doc, s, p)
    && IsStart(doc[p], TAG_META_DATA)
    && IsShortcutsMeta(doc[p].attrs)
    && (ATTR_RESOURCE !in doc[p].attrs || doc[p].attrs[ATTR_RESOURCE] == "")
  }

  /** The activity whose content begins at `s` holds a broken marker its loop reads. */
  ghost predicate HasBrokenMarker(doc: Document, s: nat) {
    exists p: nat :: BrokenMarker(doc, s, p)
  }

  /**
   * ScanActivity throws only on a broken marker it reads, or when the
   * activity never closes; an unparsable id and every other child are
   * passed over.
   */
  lemma {:induction false} ScanActivityFails(doc: Document, s: nat, pos: nat, c: ComponentName, depth: nat, m: Index)
    requires 0 < depth && Open(doc, s, pos, depth) && NoOpenMeta(doc, s, pos)
    ensures ScanActivity(doc, pos, c, depth, m).Failure? ==> !Closes(doc, s) || exists p: nat | pos <= p :: BrokenMarker(doc, s, p)
    decreases |doc| - pos
  {
    if pos == |doc| {
      NoEndAfterEof(doc, s, depth);
    } else if doc[pos].EndTag? {
      if depth > 1 {
        OpenStep(doc, s, pos, depth);
        NoOpenMetaStep(doc, s, pos);
        ScanActivityFails(doc, s, pos + 1, c, depth - 1, m);
      }
    } else if IsStart(doc[pos], TAG_META_DATA) {
      NestedCloses(doc, s, pos, depth);
      if ParseMeta(doc, pos + 1, c, m).Failure? {
        var attrs := doc[pos].attrs;
        if IsShortcutsMeta(attrs) && (ATTR_RESOURCE !in attrs || attrs[ATTR_RESOURCE] == "") {
          assert !InsideMeta(doc, s, pos);
          assert BrokenMarker(doc, s, pos);
        }
      } else {
        var (q, m1) := ParseMeta(doc, pos + 1, c, m).value;
        assert ScanActivity(doc, pos, c, depth, m) == ScanActivity(doc, q, c, depth, m1);
        OpenAcrossElement(doc, s, pos, depth, q);
        NoOpenMetaAcross(doc, s, pos, q);
        ScanActivityFails(doc, s, q, c, depth, m1);
      }
    } else {
      var depth' := depth + Weight(doc[pos]);
      OpenStep(doc, s, pos, depth);
      NoOpenMetaStep(doc, s, pos);
      assert ScanActivity(doc, pos, c, depth, m) == ScanActivity(doc, pos + 1, c, depth', m);
      ScanActivityFails(doc, s, pos + 1, c, depth', m);
    }
  }

  /** A broken marker ScanActivity reaches makes it throw. */
  lemma {:induction false} ScanActivityBreaks(doc: Document, s: nat, pos: nat, c: ComponentName, depth: nat, m: Index, p: nat)
    requires 0 < depth && Open(doc, s, pos, depth) && NoOpenMeta(doc, s, pos) && pos <= p
    ensures BrokenMarker(doc, s, p) ==> ScanActivity(doc, pos, c, depth, m).Failure?
    decreases |doc| - pos
  {
    if pos < p && pos < |doc| {
      if doc[pos].EndTag? {
        if depth == 1 {
          assert DepthAt(doc, s, pos + 1) == -1;
          assert !BrokenMarker(doc, s, p);
        } else {
          OpenStep(doc, s, pos, depth);
          NoOpenMetaStep(doc, s, pos);
          ScanActivityBreaks(doc, s, pos + 1, c, depth - 1, m, p);
        }
      } else if IsStart(doc[pos], TAG_META_DATA) {
        if ParseMeta(doc, pos + 1, c, m).Success? {
          var (q, m1) := ParseMeta(doc, pos + 1, c, m).value;
          assert ScanActivity(doc, pos, c, depth, m) == ScanActivity(doc, q, c, depth, m1);
          if p < q {
            assert InsideMeta(doc, s, p) by {
              assert s <= pos < p < q && ElementSpan(doc, pos, q);
            }
          } else {
            OpenAcrossElement(doc, s, pos, depth, q);
            NoOpenMetaAcross(doc, s, pos, q);
            ScanActivityBreaks(doc, s, q, c, depth, m1, p);
          }
        }
      } else {
        var depth' := depth + Weight(doc[pos]);
        OpenStep(doc, s, pos, depth);
        NoOpenMetaStep(doc, s, pos);
        assert ScanActivity(doc, pos, c, depth, m) == ScanActivity(doc, pos + 1, c, depth', m);
        ScanActivityBreaks(doc, s, pos + 1, c, depth', m, p);
      }
    }
  }

  /**
   * `parseActivity` throws exactly when the activity never closes, or when
   * it has a `name` and its loop reads a broken marker: an activity
   * without `name` is skipped whole, and an unparsable id is swallowed.
   */
  lemma ParseActivityFails(doc: Document, pos: nat, packageName: string, m: Index)
    requires 0 < pos <= |doc| && doc[pos - 1].StartTag?
    ensures ParseActivity(doc, pos, packageName, m).Failure? <==>
              !Closes(doc, pos) || (ATTR_NAME in doc[pos - 1].attrs && HasBrokenMarker(doc, pos))
  {
    if ATTR_NAME in doc[pos - 1].attrs {
      var c := ComponentName(packageName, doc[pos - 1].attrs[ATTR_NAME]);
      OpenStart(doc, pos);
      ScanActivityFails(doc, pos, pos, c, 1, m);
      forall p: nat | BrokenMarker(doc, pos, p) ensures ParseActivity(doc, pos, packageName, m).Failure? {
        ScanActivityBreaks(doc, pos, pos, c, 1, m, p);
      }
    }
  }

  /** The loop over the children of `application`; it stops at the first event that is not a start tag. */
  function ScanApplication(doc: Document, pos: nat, packageName: string, m: Index): (r: Outcome<Index>)
    requires pos <= |doc|
    ensures r.Success? ==> m.Keys <= r.value.Keys
    ensures r.Failure? ==> r.error == NullPointer || r.error == IndexOutOfBounds || r.error == Unterminated
    decreases |doc| - pos
  {
    if pos == |doc| || !doc[pos].StartTag? then Success(m)
    else if IsActivityTag(doc[pos].name) then
      var step :- ParseActivity(doc, pos + 1, packageName, m);
      ScanApplication(doc, step.0, packageName, step.1)
    else
      var q :- Skip(doc, pos + 1);
      ScanApplication(doc, q, packageName, m)
  }

  /**
   * Every entry ScanApplication adds comes from a shortcuts meta-data
   * inside a top-level activity of the element whose content begins at `s`,
   * and names that activity.
   */
  lemma {:induction false} ScanApplicationAttributes(doc: Document, s: nat, pos: nat, packageName: string, m: Index)
    requires Open(doc, s, pos, 1)
    requires ScanApplication(doc, pos, packageName, m).Success?
    ensures var m' := ScanApplication(doc, pos, packageName, m).value;
            forall k | k in m' :: (k in m && m'[k] == m[k]) || AttributedIn(doc, s, packageName, k, m'[k])
    decreases |doc| - pos
  {
    if pos == |doc| || !doc[pos].StartTag? {
    } else if IsActivityTag(doc[pos].name) {
      var step := ParseActivity(doc, pos + 1, packageName, m).value;
      OpenAcrossElement(doc, s, pos, 1, step.0);
      ScanApplicationAttributes(doc, s, step.0, packageName, step.1);
      var m' := ScanApplication(doc, pos, packageName, m).value;
      assert m' == ScanApplication(doc, step.0, packageName, step.1).value;
      if ATTR_NAME in doc[pos].attrs {
        var c := ComponentName(packageName, doc[pos].attrs[ATTR_NAME]);
        if ChangedAt(m, step.1, c) {
          assert ChildOf(doc, s, pos);
          assert ActivityAt(doc, pos, c.className);
          assert ElementSpan(doc, pos, step.0);
          assert AttributedIn(doc, s, packageName, c, step.1[c]);
        }
      }
    } else {
      var q := Skip(doc, pos + 1).value;
      OpenAcrossElement(doc, s, pos, 1, q);
      ScanApplicationAttributes(doc, s, q, packageName, m);
    }
  }

  /** The child `doc[a]` of `application` throws: it never closes, or it is a named activity with a broken marker. */
  ghost predicate ChildThrows(doc: Document, a: nat) {
    && a < |doc| && doc[a].StartTag?
    && (|| !Closes(doc, a + 1)
        || (IsActivityTag(doc[a].name) && ATTR_NAME in doc[a].attrs && HasBrokenMarker(doc, a + 1)))
  }

  /** The children loop begun at `s` reads a child that throws. */
  ghost predicate ApplicationThrows(doc: Document, s: nat) {
    exists a: nat :: ReachedFrom(doc, s, s, a) && ChildThrows(doc, a)
  }

  /** The start tag a children loop reads from `e0` on it also reads from `pos`, when `doc[pos]` is a child that closes at `e0`. */
  lemma ReachedBack(doc: Document, s: nat, pos: nat, e0: nat, a: nat)
    requires Open(doc, s, pos, 1) && ElementSpan(doc, pos, e0) && ReachedFrom(doc, s, e0, a)
    ensures ReachedFrom(doc, s, pos, a)
  {
    forall j | pos < j < e0 ensures !Open(doc, s, j, 1) {
      InsideElement(doc, s, pos, 1, e0, j);
    }
  }

  /** ScanApplication throws only at a child it reads that throws. */
  lemma {:induction false} ScanApplicationFails(doc: Document, s: nat, pos: nat, packageName: string, m: Index)
    requires Open(doc, s, pos, 1)
    ensures ScanApplication(doc, pos, packageName, m).Failure? ==> exists a: nat :: ReachedFrom(doc, s, pos, a) && ChildThrows(doc, a)
    decreases |doc| - pos
  {
    if pos == |doc| || !doc[pos].StartTag? {
    } else if IsActivityTag(doc[pos].name) {
      ParseActivityFails(doc, pos + 1, packageName, m);
      if ParseActivity(doc, pos + 1, packageName, m).Failure? {
        assert ReachedFrom(doc, s, pos, pos) && ChildThrows(doc, pos);
      } else {
        var (e0, m1) := ParseActivity(doc, pos + 1, packageName, m).value;
        assert ScanApplication(doc, pos, packageName, m) == ScanApplication(doc, e0, packageName, m1);
        OpenAcrossElement(doc, s, pos, 1, e0);
        ScanApplicationFails(doc, s, e0, packageName, m1);
        forall a: nat | ReachedFrom(doc, s, e0, a) ensures ReachedFrom(doc, s, pos, a) {
          ReachedBack(doc, s, pos, e0, a);
        }
      }
    } else {
      if Skip(doc, pos + 1).Failure? {
        assert ReachedFrom(doc, s, pos, pos) && ChildThrows(doc, pos);
      } else {
        var e0 := Skip(doc, pos + 1).value;
        OpenAcrossElement(doc, s, pos, 1, e0);
        ScanApplicationFails(doc, s, e0, packageName, m);
        forall a: nat | ReachedFrom(doc, s, e0, a) ensures ReachedFrom(doc, s, pos, a) {
          ReachedBack(doc, s, pos, e0, a);
        }
      }
    }
  }

  /** A child that throws, read by ScanApplication, makes it throw. */
  lemma {:induction false} ScanApplicationBreaks(doc: Document, s: nat, pos: nat, packageName: string, m: Index, a: nat)
    requires Open(doc, s, pos, 1)
    ensures ReachedFrom(doc, s, pos, a) && ChildThrows(doc, a) ==> ScanApplication(doc, pos, packageName, m).Failure?
    decreases |doc| - pos
  {
    if pos < |doc| && doc[pos].StartTag? && pos <= a {
      var e0: nat;
      var m1: Index;
      if IsActivityTag(doc[pos].name) {
        ParseActivityFails(doc, pos + 1, packageName, m);
        if ParseActivity(doc, pos + 1, packageName, m).Failure? {
          return;
        }
        e0, m1 := ParseActivity(doc, pos + 1, packageName, m).value.0, ParseActivity(doc, pos + 1, packageName, m).value.1;
        assert ScanApplication(doc, pos, packageName, m) == ScanApplication(doc, e0, packageName, m1);
      } else {
        if Skip(doc, pos + 1).Failure? {
          return;
        }
        e0, m1 := Skip(doc, pos + 1).value, m;
      }
      if a < e0 {
        if pos < a {
          InsideElement(doc, s, pos, 1, e0, a);
        }
      } else {
        OpenAcrossElement(doc, s, pos, 1, e0);
        ScanApplicationBreaks(doc, s, e0, packageName, m1, a);
      }
    }
  }

  /**
   * The children loop from a start tag `doc[pos]` whose element closes at
   * `e0` reads that element and then continues from `e0`.
   */
  lemma KeyMarkerSplit(doc: Document, s: nat, pos: nat, e0: nat, k: ComponentName)
    requires Open(doc, s, pos, 1) && ElementSpan(doc, pos, e0)
    ensures Open(doc, s, e0, 1)
    ensures forall p: nat :: KeyMarker(doc, s, pos, k, p) <==>
              (ActivityAt(doc, pos, k.className) && pos < p < e0 && ActivityMarker(doc, pos, p)) || KeyMarker(doc, s, e0, k, p)
    ensures forall p: nat | KeyMarker(doc, s, e0, k, p) :: e0 < p
  {
    OpenAcrossElement(doc, s, pos, 1, e0);
    forall j | pos < j < e0 ensures !Open(doc, s, j, 1) {
      InsideElement(doc, s, pos, 1, e0, j);
    }
    forall p: nat | KeyMarker(doc, s, pos, k, p)
      ensures (ActivityAt(doc, pos, k.className) && pos < p < e0 && ActivityMarker(doc, pos, p)) || KeyMarker(doc, s, e0, k, p)
    {
      var a: nat, e: nat :| ReachedFrom(doc, s, pos, a) && ActivityAt(doc, a, k.className) && ElementSpan(doc, a, e) && a < p < e && ActivityMarker(doc, a, p);
      if a == pos {
        MatchingEndUnique(doc, pos + 1, e, e0);
      } else {
        assert ReachedFrom(doc, s, e0, a);
      }
    }
    forall p: nat | ActivityAt(doc, pos, k.className) && pos < p < e0 && ActivityMarker(doc, pos, p)
      ensures KeyMarker(doc, s, pos, k, p)
    {
      assert ReachedFrom(doc, s, pos, pos);
    }
    forall p: nat | KeyMarker(doc, s, e0, k, p) ensures KeyMarker(doc, s, pos, k, p) && e0 < p {
      var a: nat, e: nat :| ReachedFrom(doc, s, e0, a) && ActivityAt(doc, a, k.className) && ElementSpan(doc, a, e) && a < p < e && ActivityMarker(doc, a, p);
      assert ReachedFrom(doc, s, pos, a);
    }
  }

  /** Where the children loop stops, it reads no further start tag. */
  lemma ReachedNone(doc: Document, s: nat, pos: nat)
    requires Open(doc, s, pos, 1) && (pos == |doc| || !doc[pos].StartTag?)
    ensures forall a: nat :: !ReachedFrom(doc, s, pos, a)
  {
  }

  /** What the children loop records for `k` from `pos` on, given the index `m'` it ends with. */
  ghost predicate RecordsLast(doc: Document, s: nat, pos: nat, k: ComponentName, m: Index, m': Index) {
    && (forall p: nat | LastKeyMarker(doc, s, pos, k, p) :: k in m' && m'[k] == MarkerId(doc, p))
    && ((forall p: nat :: !KeyMarker(doc, s, pos, k, p)) ==> SameEntry(m, m', k))
  }

  /** The step of the children loop over an activity named `k.className`. */
  lemma MatchedActivityStep(doc: Document, s: nat, pos: nat, inner: nat, e0: nat, k: ComponentName, m: Index, m1: Index, m': Index)
    requires Open(doc, s, pos, 1) && ElementSpan(doc, pos, e0) && ActivityAt(doc, pos, k.className) && inner == pos + 1
    requires forall p: nat | LastMarkerIn(doc, inner, inner, e0, p) :: m1 == m[k := MarkerId(doc, p)]
    requires NoMarkerIn(doc, inner, inner, e0) ==> m1 == m
    requires RecordsLast(doc, s, e0, k, m1, m')
    ensures RecordsLast(doc, s, pos, k, m, m')
  {
    KeyMarkerSplit(doc, s, pos, e0, k);
    forall p: nat | LastKeyMarker(doc, s, pos, k, p) && !KeyMarker(doc, s, e0, k, p)
      ensures k in m' && m'[k] == MarkerId(doc, p)
    {
      assert pos < p < e0;
      forall p': nat | p < p' < e0 ensures !Marker(doc, inner, p') {
        assert !KeyMarker(doc, s, pos, k, p');
      }
      assert LastMarkerIn(doc, inner, inner, e0, p);
    }
    forall p: nat | LastKeyMarker(doc, s, pos, k, p) && KeyMarker(doc, s, e0, k, p) ensures LastKeyMarker(doc, s, e0, k, p) {
      forall p': nat | p < p' ensures !KeyMarker(doc, s, e0, k, p') {
        assert !KeyMarker(doc, s, pos, k, p');
      }
    }
    if forall p: nat :: !KeyMarker(doc, s, pos, k, p) {
      forall p: nat | inner <= p < e0 ensures !Marker(doc, inner, p) {
        assert !KeyMarker(doc, s, pos, k, p);
      }
      assert NoMarkerIn(doc, inner, inner, e0);
    }
  }

  /** The step of the children loop over any other element, which leaves the entry for `k` alone. */
  lemma OtherElementStep(doc: Document, s: nat, pos: nat, e0: nat, k: ComponentName, m: Index, m1: Index, m': Index)
    requires Open(doc, s, pos, 1) && ElementSpan(doc, pos, e0) && !ActivityAt(doc, pos, k.className)
    requires SameEntry(m, m1, k)
    requires RecordsLast(doc, s, e0, k, m1, m')
    ensures RecordsLast(doc, s, pos, k, m, m')
  {
    KeyMarkerSplit(doc, s, pos, e0, k);
    forall p: nat | LastKeyMarker(doc, s, pos, k, p) ensures LastKeyMarker(doc, s, e0, k, p) {
      forall p': nat | p < p' ensures !KeyMarker(doc, s, e0, k, p') {
        assert !KeyMarker(doc, s, pos, k, p');
      }
    }
  }

  /**
   * ScanApplication records for `k` the id of the last marker it reads in
   * an activity named `k.className`; when it reads none, the entry for `k`
   * is what it was.
   */
  lemma {:induction false} ScanApplicationLast(doc: Document, s: nat, pos: nat, packageName: string, m: Index, k: ComponentName)
    requires Open(doc, s, pos, 1) && k.packageName == packageName
    requires ScanApplication(doc, pos, packageName, m).Success?
    ensures RecordsLast(doc, s, pos, k, m, ScanApplication(doc, pos, packageName, m).value)
    decreases |doc| - pos
  {
    var m' := ScanApplication(doc, pos, packageName, m).value;
    if pos == |doc| || !doc[pos].StartTag? {
      ReachedNone(doc, s, pos);
    } else {
      if IsActivityTag(doc[pos].name) {
        var step := ParseActivity(doc, pos + 1, packageName, m).value;
        assert m' == ScanApplication(doc, step.0, packageName, step.1).value;
        OpenAcrossElement(doc, s, pos, 1, step.0);
        ScanApplicationLast(doc, s, step.0, packageName, step.1, k);
        ActivityStep(doc, s, pos, packageName, m, k, m');
      } else {
        var e0 := Skip(doc, pos + 1).value;
        OpenAcrossElement(doc, s, pos, 1, e0);
        ScanApplicationLast(doc, s, e0, packageName, m, k);
        OtherElementStep(doc, s, pos, e0, k, m, m, m');
      }
    }
  }

  /** The step of the children loop over an activity or activity-alias element. */
  lemma ActivityStep(doc: Document, s: nat, pos: nat, packageName: string, m: Index, k: ComponentName, m': Index)
    requires Open(doc, s, pos, 1) && k.packageName == packageName
    requires pos < |doc| && doc[pos].StartTag? && IsActivityTag(doc[pos].name)
    requires ParseActivity(doc, pos + 1, packageName, m).Success?
    requires RecordsLast(doc, s, ParseActivity(doc, pos + 1, packageName, m).value.0, k, ParseActivity(doc, pos + 1, packageName, m).value.1, m')
    ensures RecordsLast(doc, s, pos, k, m, m')
  {
    var (e0, m1) := ParseActivity(doc, pos + 1, packageName, m).value;
    if ActivityAt(doc, pos, k.className) {
      MatchedActivityStep(doc, s, pos, pos + 1, e0, k, m, m1, m');
    } else {
      OtherElementStep(doc, s, pos, e0, k, m, m1, m');
    }
  }

  /**
   * The loop before `application`: top-level start tags are skipped whole;
   * the loop ends at the first event that is not a start tag, and the parse
   * continues only if `getName()` of the event it stopped on, or of the
   * start tag it broke at, is "application".
   */
  function FindApplication(doc: Document, pos: nat): (r: Outcome<nat>)
    requires pos <= |doc|
    ensures r.Success? ==> pos < r.value <= |doc| && NamesApplication(doc[r.value - 1])
    ensures r.Failure? ==> r.error == IllegalState || r.error == Unterminated
    decreases |doc| - pos
  {
    if pos == |doc| then Failure(IllegalState)
    else match doc[pos]
      case StartTag(name, _) =>
        if name == TAG_APPLICATION then Success(pos + 1)
        else
          var q :- Skip(doc, pos + 1);
          FindApplication(doc, q)
      case EndTag(name) =>
        if name == TAG_APPLICATION then Success(pos + 1) else Failure(IllegalState)
      case _ => Failure(IllegalState)
  }

  /**
   * The event FindApplication stops on lies at the top level of the element
   * whose content begins at `s`, and is the first there naming `application`.
   */
  lemma {:induction false} FindApplicationTopLevel(doc: Document, s: nat, pos: nat, r: nat)
    requires Open(doc, s, pos, 1)
    requires FindApplication(doc, pos) == Success(r)
    ensures Open(doc, s, r - 1, 1)
    ensures FirstApplicationAt(doc, s, pos, r - 1)
    decreases |doc| - pos
  {
    if doc[pos].StartTag? && doc[pos].name != TAG_APPLICATION {
      var q := Skip(doc, pos + 1).value;
      assert FindApplication(doc, q) == Success(r);
      OpenAcrossElement(doc, s, pos, 1, q);
      FindApplicationTopLevel(doc, s, q, r);
      FirstApplicationBack(doc, s, pos, q, r - 1);
    }
  }

  /** A skipped top-level element that is not `application` keeps the first one first. */
  lemma FirstApplicationBack(doc: Document, s: nat, pos: nat, q: nat, p: nat)
    requires Open(doc, s, pos, 1) && ElementSpan(doc, pos, q) && doc[pos].name != TAG_APPLICATION
    requires FirstApplicationAt(doc, s, q, p)
    ensures FirstApplicationAt(doc, s, pos, p)
  {
    forall j | pos < j < q ensures !Open(doc, s, j, 1) {
      InsideElement(doc, s, pos, 1, q, j);
    }
  }

  /** FindApplication reaches the first top-level event naming `application` when only other start tags precede it. */
  lemma {:induction false} FindApplicationReaches(doc: Document, s: nat, pos: nat, p: nat)
    requires Open(doc, s, pos, 1) && FirstApplicationAt(doc, s, pos, p)
    ensures FindApplication(doc, pos) == Success(p + 1)
    decreases p - pos
  {
    if pos < p {
      var q := ClosesBefore(doc, s, pos, p);
      assert Skip(doc, pos + 1) == Success(q);
      OpenAcrossElement(doc, s, pos, 1, q);
      FindApplicationReaches(doc, s, q, p);
    }
  }

  /**
   * `parseManifest`: after two unconditional advances the current event
   * must be the `manifest` start tag.
   */
  function ParseManifest(doc: Document, packageName: string): (r: Outcome<Index>)
    ensures !(2 <= |doc| && IsStart(doc[1], TAG_MANIFEST)) ==> r == Failure(XmlPullParser)
    ensures r.Success? ==> forall k | k in r.value :: Attributed(doc, packageName, k, r.value[k])
    ensures r.Failure? ==>
              || r.error == XmlPullParser || r.error == IllegalState
              || r.error == NullPointer || r.error == IndexOutOfBounds || r.error == Unterminated
  {
    if |doc| < 2 || !IsStart(doc[1], TAG_MANIFEST) then Failure(XmlPullParser)
    else
      var s :- FindApplication(doc, 2);
      var r := ScanApplication(doc, s, packageName, map[]);
      if r.Success? then
        OpenStart(doc, 2);
        FindApplicationTopLevel(doc, 2, 2, s);
        OpenStart(doc, s);
        ScanApplicationAttributes(doc, s, s, packageName, map[]);
        assert ApplicationAt(doc, s);
        r
      else
        r
  }

  /**
   * Completeness of `parseManifest`: for every component of the package,
   * the index holds the id of the last marker read in an activity of that
   * name among the children of `application`, and no entry when there is
   * none.
   */
  lemma ParseManifestComplete(doc: Document, packageName: string, k: ComponentName)
    requires ParseManifest(doc, packageName).Success? && k.packageName == packageName
    ensures FindApplication(doc, 2).Success?
    ensures var s := FindApplication(doc, 2).value;
            var index := ParseManifest(doc, packageName).value;
            && ApplicationAt(doc, s)
            && (forall p: nat | LastKeyMarker(doc, s, s, k, p) :: k in index && index[k] == MarkerId(doc, p))
            && ((forall p: nat :: !KeyMarker(doc, s, s, k, p)) ==> k !in index)
  {
    var s := FindApplication(doc, 2).value;
    OpenStart(doc, 2);
    FindApplicationTopLevel(doc, 2, 2, s);
    OpenStart(doc, s);
    ScanApplicationLast(doc, s, s, packageName, map[], k);
  }

  /**
   * `parseManifest` throws exactly when the document does not open with
   * `manifest`, when no top-level event names `application`, or when a
   * child of that `application` throws; children that are not activities,
   * activities without `name` and unparsable ids are passed over.
   */
  lemma ParseManifestFails(doc: Document, packageName: string)
    ensures ParseManifest(doc, packageName).Failure? <==>
              || !(2 <= |doc| && IsStart(doc[1], TAG_MANIFEST))
              || (forall p: nat :: !FirstApplicationAt(doc, 2, 2, p))
              || exists p: nat :: FirstApplicationAt(doc, 2, 2, p) && ApplicationThrows(doc, p + 1)
  {
    if 2 <= |doc| && IsStart(doc[1], TAG_MANIFEST) {
      OpenStart(doc, 2);
      forall p: nat | FirstApplicationAt(doc, 2, 2, p) ensures FindApplication(doc, 2) == Success(p + 1) {
        FindApplicationReaches(doc, 2, 2, p);
      }
      if FindApplication(doc, 2).Success? {
        var s := FindApplication(doc, 2).value;
        FindApplicationTopLevel(doc, 2, 2, s);
        OpenStart(doc, s);
        ScanApplicationFails(doc, s, s, packageName, map[]);
        forall a: nat | ReachedFrom(doc, s, s, a) && ChildThrows(doc, a) ensures ScanApplication(doc, s, packageName, map[]).Failure? {
          ScanApplicationBreaks(doc, s, s, packageName, map[], a);
        }
      }
    }
  }
}

=== FILE: platform.dfy ===
/**
 * The parts of the Java platform the parsers rely on: the exceptions they
 * raise and the decimal conversions of `Integer.parseInt` and
 * `Integer.toString`, with Java's 32-bit `int` range written out.
 */
module Platform {
  import opened Wrappers

  /**
   * The exceptions the parsers and the entry point can raise. Every one of
   * them propagates to the caller of `getAppShortcuts`, except a
   * NumberFormat raised inside the manifest's meta-data parsing, which is
   * swallowed there.
   */
  datatype Exception =
    | XmlPullParser                     // XmlPullParser.require saw another event or tag name
    | IllegalState                      // skip away from a start tag, or a manifest without <application>
    | NumberFormat                      // Integer.parseInt rejected its argument
    | NullPointer                       // a method called on an absent attribute value
    | IndexOutOfBounds                  // substring(1) of the empty string
    | NotFound(id: int)                 // Resources.NotFoundException for a resource id
    | NameNotFound(packageName: string) // PackageManager.NameNotFoundException
    | NullArgument(message: string)     // a null argument rejected by checkNotNull
    /**
     * The document ended inside an element while a depth loop was
     * consuming it. The source's loops ignore END_DOCUMENT, so they would
     * never return; the model stops with this value instead.
     */
    | Unterminated

  type Outcome<T> = Result<T, Exception>

  const INT_MIN: int := -0x8000_0000
  const INT_MAX: int := 0x7fff_ffff

  predicate IsDigit(c: char) {
    '0' <= c <= '9'
  }

  predicate AllDigits(s: string) {
    forall i | 0 <= i < |s| :: IsDigit(s[i])
  }

  function DigitValue(c: char): nat
    requires IsDigit(c)
  {
    c as int - '0' as int
  }

  function DigitChar(d: nat): char
    requires d < 10
  {
    ('0' as int + d) as char
  }

  /** The value of a run of decimal digits, most significant first. */
  function DigitsValue(s: string): nat
    requires AllDigits(s)
  {
    if s == [] then 0 else DigitsValue(s[..|s| - 1]) * 10 + DigitValue(s[|s| - 1])
  }

  /**
   * `Integer.parseInt(s)`: an optional sign followed by at least one decimal
   * digit, whose value must fit in a Java `int`; `None` is the
   * NumberFormatException.
   */
  function ParseInt(s: string): (r: Option<int>)
    ensures r.Some? ==> INT_MIN <= r.value <= INT_MAX
    ensures r.Some? ==> s != [] && (IsDigit(s[0]) || s[0] == '-' || s[0] == '+')
  {
    if s == [] then None
    else
      var signed := s[0] == '-' || s[0] == '+';
      var digits := if signed then s[1..] else s;
      if digits == [] || !AllDigits(digits) then None
      else
        var magnitude: int := DigitsValue(digits);
        var v := if s[0] == '-' then -magnitude else magnitude;
        if INT_MIN <= v <= INT_MAX then Some(v) else None
  }

  /** Decimal digits of a natural number, without leading zeros. */
  function NatToString(n: nat): string
  {
    if n < 10 then [DigitChar(n)] else NatToString(n / 10) + [DigitChar(n % 10)]
  }

  /** `Integer.toString(n)`: a minus sign for negative values, then the digits. */
  function IntToString(n: int): string
  {
    if n < 0 then "-" + NatToString(-n) else NatToString(n)
  }

  /** The digits NatToString writes read back as the number they came from. */
  lemma {:induction false} NatToStringDigits(n: nat)
    ensures |NatToString(n)| > 0 && AllDigits(NatToString(n))
    ensures DigitsValue(NatToString(n)) == n
    decreases n
  {
    var s := NatToString(n);
    if n >= 10 {
      NatToStringDigits(n / 10);
      assert s[..|s| - 1] == NatToString(n / 10);
      assert DigitValue(s[|s| - 1]) == n % 10;
    }
  }

  /** Distinct numbers have distinct decimal spellings. */
  lemma NatToStringInjective(i: nat, j: nat)
    requires NatToString(i) == NatToString(j)
    ensures i == j
  {
    NatToStringDigits(i);
    NatToStringDigits(j);
  }

  /** `Integer.parseInt(Integer.toString(n)) == n` for every Java `int`. */
  lemma ParseIntRoundTrip(n: int)
    requires INT_MIN <= n <= INT_MAX
    ensures ParseInt(IntToString(n)) == Some(n)
  {
    var s := IntToString(n);
    if n < 0 {
      NatToStringDigits(-n);
      assert s[1..] == NatToString(-n);
    } else {
      NatToStringDigits(n);
      assert IsDigit(s[0]);
    }
  }
}

=== FILE: scenarios.dfy ===
/**
 * Worked examples of the model on small documents: a package with one
 * exported activity `.Main` whose shortcuts resource 77 declares one
 * shortcut `s1`, the two places where the order of declarations decides
 * the outcome, a shortcut without an icon, and a `resource` value whose
 * first character lies above U+FFFF.
 */
module Scenarios {
  import opened Wrappers
  import opened Platform
  import opened XmlPull
  import opened Android
  import opened AppShortcuts
  import opened PackageParser
  import opened ShortcutParser
  import opened Compat

  const MAIN := ComponentName("com.x", ".Main")

  const MARKER: map<string, string> := map["name" := "android.app.shortcuts", "resource" := "@77"]

  /** One exported activity `.Main` whose shortcuts are resource 77. */
  const MANIFEST: Document := [
    StartDocument,
    StartTag("manifest", map[]),
    StartTag("application", map[]),
    StartTag("activity", map["name" := ".Main"]),
    StartTag("meta-data", MARKER),
    EndTag("meta-data"),
    EndTag("activity"),
    EndTag("application"),
    EndTag("manifest")
  ]

  const SHORTCUT_ATTRS: map<string, string> := map["shortcutId" := "s1", "shortcutShortLabel" := "Open", "icon" := "@88"]

  const INTENT_ATTRS: map<string, string> :=
    map["action" := "android.intent.action.VIEW", "targetClass" := ".Main", "targetPackage" := "com.x"]

  const SHORTCUTS: Document := [
    StartDocument,
    StartTag("shortcuts", map[]),
    StartTag("shortcut", SHORTCUT_ATTRS),
    StartTag("intent", INTENT_ATTRS),
    EndTag("intent"),
    EndTag("shortcut"),
    EndTag("shortcuts")
  ]

  const RESOURCES := Resources(map[], map[88 := Drawable(1)], map[77 := SHORTCUTS])

  const INFO := PackageInfo([ActivityInfo(".Main", true)])

  const DEVICE := Context(map["com.x" := InstalledPackage(MANIFEST, RESOURCES, INFO)])

  const EXPECTED := AppShortcut(
    "s1",
    Intent(MAIN, "android.intent.action.VIEW", None, LAUNCH_FLAGS),
    MAIN,
    "Open",
    "",
    "",
    Drawable(1))

  /** A decimal spelling the examples use reads back as its number. */
  lemma Number(n: nat, s: string)
    requires n <= INT_MAX && s == NatToString(n)
    ensures ParseInt(s) == Some(n)
  {
    ParseIntRoundTrip(n);
  }

  /** The manifest maps `.Main` to resource 77. */
  lemma ExampleMeta()
    ensures ParseMeta(MANIFEST, 5, MAIN, map[]) == Success((6, map[MAIN := 77]))
  {
    Number(77, "77");
    assert MARKER["resource"][1..] == "77";
    assert PutShortcutsId(MARKER, MAIN, map[]) == Success(map[MAIN := 77]);
    assert Skip(MANIFEST, 5) == Success(6);
  }

  lemma ExampleActivity()
    ensures ParseActivity(MANIFEST, 4, "com.x", map[]) == Success((7, map[MAIN := 77]))
  {
    ExampleMeta();
    var found := map[MAIN := 77];
    assert ScanActivity(MANIFEST, 6, MAIN, 1, found) == Success((7, found));
    assert ScanActivity(MANIFEST, 4, MAIN, 1, map[]) == Success((7, found));
  }

  lemma ExampleApplication()
    ensures ScanApplication(MANIFEST, 3, "com.x", map[]) == Success(map[MAIN := 77])
  {
    ExampleActivity();
    var found := map[MAIN := 77];
    assert ScanApplication(MANIFEST, 7, "com.x", found) == Success(found);
  }

  lemma ExampleIndex()
    ensures ParseManifest(MANIFEST, "com.x") == Success(map[MAIN := 77])
  {
    assert IsStart(MANIFEST[1], TAG_MANIFEST);
    assert FindApplication(MANIFEST, 2) == Success(3);
    ExampleApplication();
  }

  const LAUNCH := Intent(MAIN, "android.intent.action.VIEW", None, LAUNCH_FLAGS)

  lemma ExampleLabels()
    ensures ResourceAttribute(SHORTCUT_ATTRS, ATTR_ICON) == Success(88)
    ensures CharSequence(RESOURCES, SHORTCUT_ATTRS, ATTR_SHORT_LABEL) == Success(Some("Open"))
    ensures CharSequence(RESOURCES, SHORTCUT_ATTRS, ATTR_LONG_LABEL) == Success(None)
    ensures CharSequence(RESOURCES, SHORTCUT_ATTRS, ATTR_DISABLED_MESSAGE) == Success(None)
  {
    Number(88, "88");
    assert SHORTCUT_ATTRS["icon"][1..] == "88";
  }

  lemma ExampleIntent()
    ensures ScanBody(SHORTCUTS, 3, MAIN, 1, None) == Success((6, Some(LAUNCH)))
  {
    assert IntentOf(INTENT_ATTRS, MAIN) == LAUNCH.(flags := 0);
    assert Skip(SHORTCUTS, 4) == Success(5);
    assert ParseIntent(SHORTCUTS, 4, MAIN) == Success((5, LAUNCH.(flags := 0)));
    assert ScanBody(SHORTCUTS, 5, MAIN, 1, Some(LAUNCH)) == Success((6, Some(LAUNCH)));
  }

  /** The shortcut `s1` becomes a record with its id, short label and icon, and empty other labels. */
  lemma ExampleRecord()
    ensures ParseShortcut(INFO, RESOURCES, SHORTCUTS, 3, MAIN, []) == Success((6, [EXPECTED]))
  {
    ExampleLabels();
    ExampleIntent();
    assert IsExported(MAIN, INFO.activities);
  }

  /** Resource 77 yields exactly the record for `s1`. */
  lemma ExampleShortcuts()
    ensures Parse(DEVICE, RESOURCES, "com.x", MAIN, 77) == Success([EXPECTED])
  {
    ExampleLoop();
  }

  lemma ExampleLoop()
    ensures ShortcutLoop(INFO, RESOURCES, SHORTCUTS, 2, MAIN, []) == Success([EXPECTED])
  {
    ExampleRecord();
    assert ShortcutLoop(INFO, RESOURCES, SHORTCUTS, 6, MAIN, [EXPECTED]) == Success([EXPECTED]);
  }

  /** The whole example: the entry loop over that enumeration delivers the one record. */
  lemma ExampleEndToEnd()
    ensures Enumerates([MAIN], map[MAIN := 77])
    ensures ConcatAll(DEVICE, RESOURCES, "com.x", map[MAIN := 77], [MAIN]) == Success([EXPECTED])
  {
    var index := map[MAIN := 77];
    assert EntryShortcuts(DEVICE, RESOURCES, "com.x", index, MAIN) == Success([EXPECTED]) by {
      ExampleShortcuts();
    }
    assert [MAIN][..0] == [];
    var front := ConcatAll(DEVICE, RESOURCES, "com.x", index, []);
    assert front == Success([]);
    assert [] + [EXPECTED] == [EXPECTED];
  }

  const TWO_MARKERS: Document := [
    StartTag("activity", map["name" := ".Main"]),
    StartTag("meta-data", map["name" := "android.app.shortcuts", "resource" := "@1"]),
    EndTag("meta-data"),
    StartTag("meta-data", map["name" := "android.app.shortcuts", "resource" := "@2"]),
    EndTag("meta-data"),
    EndTag("activity")
  ]

  lemma TwoMarkersEach()
    ensures ParseMeta(TWO_MARKERS, 2, MAIN, map[]) == Success((3, map[MAIN := 1]))
    ensures ParseMeta(TWO_MARKERS, 4, MAIN, map[MAIN := 1]) == Success((5, map[MAIN := 2]))
  {
    Number(1, "1");
    Number(2, "2");
    assert TWO_MARKERS[1].attrs["resource"][1..] == "1";
    assert TWO_MARKERS[3].attrs["resource"][1..] == "2";
    assert map[MAIN := 1][MAIN := 2] == map[MAIN := 2];
    assert Skip(TWO_MARKERS, 2) == Success(3);
    assert Skip(TWO_MARKERS, 4) == Success(5);
  }

  /** Two shortcuts meta-data entries in one activity: the later one is kept. */
  lemma LastMetaDataWins()
    ensures ParseActivity(TWO_MARKERS, 1, "com.x", map[]) == Success((6, map[MAIN := 2]))
  {
    TwoMarkersEach();
    assert ScanActivity(TWO_MARKERS, 5, MAIN, 1, map[MAIN := 2]) == Success((6, map[MAIN := 2]));
    assert ScanActivity(TWO_MARKERS, 3, MAIN, 1, map[MAIN := 1]) == Success((6, map[MAIN := 2]));
    assert ScanActivity(TWO_MARKERS, 1, MAIN, 1, map[]) == Success((6, map[MAIN := 2]));
  }

  /** A shortcut with two intents launches the first one. */
  lemma FirstIntentWins()
    ensures ScanBody([
              StartTag("intent", map["action" := "first"]),
              EndTag("intent"),
              StartTag("intent", map["action" := "second"]),
              EndTag("intent"),
              EndTag("shortcut")
            ], 0, MAIN, 1, None)
            == Success((5, Some(Intent(MAIN, "first", None, LAUNCH_FLAGS))))
  {
  }

  const NO_ICON: Document := [
    StartDocument,
    StartTag("shortcuts", map[]),
    StartTag("shortcut", map["shortcutId" := "s2"]),
    StartTag("intent", map[]),
    EndTag("intent"),
    EndTag("shortcut"),
    EndTag("shortcuts")
  ]

  /** Without an `icon` attribute the icon is drawable 0; absent from the resources, it fails the whole list. */
  lemma MissingIcon()
    ensures 0 !in RESOURCES.drawables
    ensures ParseShortcut(INFO, RESOURCES, NO_ICON, 3, MAIN, []) == Failure(NotFound(0))
    ensures ShortcutLoop(INFO, RESOURCES, NO_ICON, 2, MAIN, []) == Failure(NotFound(0))
  {
    assert ResolveHeader(RESOURCES, NO_ICON[2].attrs) == Failure(NotFound(0));
  }

  /**
   * `substring(1)` of "\U{1F600}77" keeps the emoji's low surrogate in
   * front of "77", so nothing parses and the index is left unchanged.
   */
  lemma SupplementaryLead()
    ensures PutShortcutsId(map["resource" := "\U{1F600}77"], MAIN, map[]) == Success(map[])
  {
  }
}

=== FILE: shortcut_parser.dfy ===
/**
 * The shortcut-definition scanner (`AppShortcutParser`): walks a
 * `<shortcuts>` XML resource, builds one record per `<shortcut>` that has
 * an `<intent>`, and keeps it only when both the declaring component and
 * the intent's target are exported.
 */
module ShortcutParser {
  import opened Wrappers
  import opened Platform
  import opened XmlPull
  import opened Android
  import opened AppShortcuts

  const TAG_SHORTCUTS := "shortcuts"
  const TAG_SHORTCUT := "shortcut"
  const ATTR_ICON := "icon"
  const ATTR_DISABLED_MESSAGE := "shortcutDisabledMessage"
  const ATTR_SHORTCUT_ID := "shortcutId"
  const ATTR_LONG_LABEL := "shortcutLongLabel"
  const ATTR_SHORT_LABEL := "shortcutShortLabel"
  const TAG_INTENT := "intent"
  const ATTR_ACTION := "action"
  const ATTR_DATA := "data"
  const ATTR_TARGET_CLASS := "targetClass"
  const ATTR_TARGET_PACKAGE := "targetPackage"

  /** The flags every activation intent receives. */
  const LAUNCH_FLAGS: bv32 := FLAG_ACTIVITY_NEW_TASK | FLAG_ACTIVITY_CLEAR_TASK | FLAG_ACTIVITY_TASK_ON_HOME

  /** Reference definition of the export gate: the first activity named like `c`'s class is exported. */
  ghost predicate DeclaredExported(c: ComponentName, activities: seq<ActivityInfo>) {
    exists i | 0 <= i < |activities| ::
      && activities[i].name == c.className
      && activities[i].exported
      && forall j | 0 <= j < i :: activities[j].name != c.className
  }

  /** `isComponentExported`: the package name of `c` plays no part. */
  function IsExported(c: ComponentName, activities: seq<ActivityInfo>): (b: bool)
    ensures b <==> DeclaredExported(c, activities)
    ensures (forall i | 0 <= i < |activities| :: activities[i].name != c.className) ==> !b
  {
    if activities == [] then false
    else if activities[0].name == c.className then
      activities[0].exported
    else
      var b := IsExported(c, activities[1..]);
      assert DeclaredExported(c, activities[1..]) ==> DeclaredExported(c, activities) by {
        if DeclaredExported(c, activities[1..]) {
          var i :| 0 <= i < |activities| - 1 && activities[1..][i].name == c.className && activities[1..][i].exported
                   && forall j | 0 <= j < i :: activities[1..][j].name != c.className;
          assert forall j | 0 <= j < i + 1 :: activities[j].name != c.className by {
            forall j | 0 <= j < i + 1 ensures activities[j].name != c.className {
              if j > 0 { assert activities[j] == activities[1..][j - 1]; }
            }
          }
        }
      }
      assert DeclaredExported(c, activities) ==> DeclaredExported(c, activities[1..]) by {
        if DeclaredExported(c, activities) {
          var i :| 0 <= i < |activities| && activities[i].name == c.className && activities[i].exported
                   && forall j | 0 <= j < i :: activities[j].name != c.className;
          assert i > 0;
          assert activities[1..][i - 1] == activities[i];
        }
      }
      b
  }

  predicate StartsWithAt(v: string) {
    |v| > 0 && v[0] == '@'
  }

  /**
   * `getResourceAttribute`: 0 when the attribute is absent, -1 when its
   * value is not a reference, otherwise the number after the `@`; an
   * unparsable number is a NumberFormatException that nothing catches.
   */
  function ResourceAttribute(attrs: map<string, string>, attr: string): (r: Outcome<int>)
    ensures attr !in attrs ==> r == Success(0)
    ensures attr in attrs && !StartsWithAt(attrs[attr]) ==> r == Success(-1)
    ensures attr in attrs && StartsWithAt(attrs[attr]) ==>
              && (r.Success? <==> ParseInt(attrs[attr][1..]).Some?)
              && (r.Success? ==> r.value == ParseInt(attrs[attr][1..]).value)
    ensures r.Failure? ==> r.error == NumberFormat
    ensures r.Success? ==> INT_MIN <= r.value <= INT_MAX
  {
    match Attr(attrs, attr)
    case None => Success(0)
    case Some(v) =>
      if !StartsWithAt(v) then Success(-1)
      else match ParseInt(v[1..])
        case Some(n) => Success(n)
        case None => Failure(NumberFormat)
  }

  /** `getCharSequence`: absent (`None`), the literal value, or the referenced string. */
  function CharSequence(res: Resources, attrs: map<string, string>, attr: string): (r: Outcome<Option<string>>)
    ensures ResourceAttribute(attrs, attr).Failure? ==> r == Failure(NumberFormat)
    ensures r == Success(None) <==> ResourceAttribute(attrs, attr) == Success(0)
    ensures ResourceAttribute(attrs, attr) == Success(-1) ==> r == Success(Some(attrs[attr]))
    ensures r.Success? && r.value.Some? ==>
              && attr in attrs
              && (r.value.value == attrs[attr] || GetString(res, ResourceAttribute(attrs, attr).value) == Success(r.value.value))
    ensures ResourceAttribute(attrs, attr).Success? && ResourceAttribute(attrs, attr).value != 0 && ResourceAttribute(attrs, attr).value != -1 ==>
              && (r.Success? <==> GetString(res, ResourceAttribute(attrs, attr).value).Success?)
              && (r.Success? ==> r == Success(Some(GetString(res, ResourceAttribute(attrs, attr).value).value)))
  {
    var id :- ResourceAttribute(attrs, attr);
    if id == 0 then Success(None)
    else if id == -1 then Success(Attr(attrs, attr))
    else
      var s :- GetString(res, id);
      Success(Some(s))
  }

  /** How each form of a label attribute resolves. */
  lemma LabelForms(res: Resources, attrs: map<string, string>, attr: string)
    ensures attr !in attrs ==> CharSequence(res, attrs, attr) == Success(None)
    ensures attr in attrs && !StartsWithAt(attrs[attr]) ==> CharSequence(res, attrs, attr) == Success(Some(attrs[attr]))
    ensures attr in attrs && attrs[attr] == "@0" ==> CharSequence(res, attrs, attr) == Success(None)
    ensures attr in attrs && attrs[attr] == "@-1" ==> CharSequence(res, attrs, attr) == Success(Some("@-1"))
    ensures attr in attrs && StartsWithAt(attrs[attr]) && ParseInt(attrs[attr][1..]).None? ==>
              CharSequence(res, attrs, attr) == Failure(NumberFormat)
  {
    if attr in attrs && attrs[attr] == "@0" {
      ParseIntRoundTrip(0);
      assert attrs[attr][1..] == IntToString(0);
    }
    if attr in attrs && attrs[attr] == "@-1" {
      ParseIntRoundTrip(-1);
      assert attrs[attr][1..] == IntToString(-1);
    }
  }

  /** An attribute written `@n`, for any Java `int` `n`, refers to resource `n`. */
  lemma ResourceReference(attrs: map<string, string>, attr: string, n: int)
    requires INT_MIN <= n <= INT_MAX
    requires attr in attrs && attrs[attr] == "@" + IntToString(n)
    ensures ResourceAttribute(attrs, attr) == Success(n)
  {
    ParseIntRoundTrip(n);
    assert attrs[attr][1..] == IntToString(n);
  }

  /** A label written `@n`, for any int `n` other than 0 and -1, is the string resource `n`. */
  lemma StringReference(res: Resources, attrs: map<string, string>, attr: string, n: int)
    requires INT_MIN <= n <= INT_MAX && n != 0 && n != -1
    requires attr in attrs && attrs[attr] == "@" + IntToString(n)
    ensures n in res.strings ==> CharSequence(res, attrs, attr) == Success(Some(res.strings[n]))
    ensures n !in res.strings ==> CharSequence(res, attrs, attr) == Failure(NotFound(n))
  {
    ResourceReference(attrs, attr, n);
  }

  /** The intent `parseIntent` builds from the `<intent>` attributes, before flags are added. */
  function IntentOf(attrs: map<string, string>, defaultComponent: ComponentName): (i: Intent)
    ensures ATTR_TARGET_CLASS in attrs && ATTR_TARGET_PACKAGE in attrs ==>
              i.component == ComponentName(attrs[ATTR_TARGET_PACKAGE], attrs[ATTR_TARGET_CLASS])
    ensures !(ATTR_TARGET_CLASS in attrs && ATTR_TARGET_PACKAGE in attrs) ==> i.component == defaultComponent
    ensures i.action == Attr(attrs, ATTR_ACTION).GetOr(ACTION_MAIN)
    ensures i.data == Attr(attrs, ATTR_DATA)
    ensures i.flags == 0
  {
    var component :=
      match (Attr(attrs, ATTR_TARGET_CLASS), Attr(attrs, ATTR_TARGET_PACKAGE))
      case (Some(cls), Some(pkg)) => ComponentName(pkg, cls)
      case _ => defaultComponent;
    var action := if ATTR_ACTION in attrs then attrs[ATTR_ACTION] else ACTION_MAIN;
    Intent(component, action, Attr(attrs, ATTR_DATA), 0)
  }

  /** `intent.addFlags(NEW_TASK | CLEAR_TASK | TASK_ON_HOME)`. */
  function Launchable(i: Intent): (r: Intent)
    ensures r.component == i.component && r.action == i.action && r.data == i.data
    ensures r.flags & LAUNCH_FLAGS == LAUNCH_FLAGS
    ensures r.flags & !LAUNCH_FLAGS == i.flags & !LAUNCH_FLAGS
  {
    i.(flags := i.flags | LAUNCH_FLAGS)
  }

  /** `parseIntent`; the intent's start tag is `doc[pos - 1]`, and its whole element is consumed. */
  function ParseIntent(doc: Document, pos: nat, defaultComponent: ComponentName): (r: Outcome<(nat, Intent)>)
    requires 0 < pos <= |doc| && doc[pos - 1].StartTag?
    ensures r.Success? ==> MatchingEnd(doc, pos, r.value.0)
    ensures r.Success? ==> r.value.1 == IntentOf(doc[pos - 1].attrs, defaultComponent)
    ensures !IsStart(doc[pos - 1], TAG_INTENT) ==> r == Failure(XmlPullParser)
    ensures IsStart(doc[pos - 1], TAG_INTENT) && r.Failure? ==>
              r.error == Unterminated && !Closes(doc, pos)
  {
    if doc[pos - 1].name != TAG_INTENT then Failure(XmlPullParser)
    else
      var q :- Skip(doc, pos);
      Success((q, IntentOf(doc[pos - 1].attrs, defaultComponent)))
  }

  /** `doc[p]` is the first `intent` start tag at or after position `s`. */
  ghost predicate FirstIntentAt(doc: Document, s: nat, p: nat) {
    && s <= p < |doc|
    && IsStart(doc[p], TAG_INTENT)
    && forall p' | s <= p' < p :: !IsStart(doc[p'], TAG_INTENT)
  }

  /**
   * The depth loop over one shortcut's subtree: every `intent` element is
   * parsed and consumed, and the first one found is kept.
   */
  function ScanBody(doc: Document, pos: nat, decl: ComponentName, depth: nat, found: Option<Intent>)
    : (r: Outcome<(nat, Option<Intent>)>)
    requires pos <= |doc| && 0 < depth
    ensures r.Success? ==> pos < r.value.0 <= |doc|
    ensures r.Success? && found.Some? ==> r.value.1 == found
    ensures r.Failure? ==> r.error == Unterminated
    decreases |doc| - pos
  {
    if pos == |doc| then Failure(Unterminated)
    else match doc[pos]
      case EndTag(_) =>
        if depth == 1 then Success((pos + 1, found)) else ScanBody(doc, pos + 1, decl, depth - 1, found)
      case StartTag(name, _) =>
        if name == TAG_INTENT then
          var parsed :- ParseIntent(doc, pos + 1, decl);
          var intent := Launchable(parsed.1);
          ScanBody(doc, parsed.0, decl, depth, if found.None? then Some(intent) else found)
        else
          ScanBody(doc, pos + 1, decl, depth + 1, found)
      case _ => ScanBody(doc, pos + 1, decl, depth, found)
  }

  /** ScanBody ends at the end tag that closes the shortcut. */
  lemma {:induction false} ScanBodyCloses(doc: Document, s: nat, pos: nat, decl: ComponentName, depth: nat, found: Option<Intent>)
    requires 0 < depth && Open(doc, s, pos, depth)
    requires ScanBody(doc, pos, decl, depth, found).Success?
    ensures MatchingEnd(doc, s, ScanBody(doc, pos, decl, depth, found).value.0)
    decreases |doc| - pos
  {
    match doc[pos]
    case EndTag(_) =>
      if depth == 1 {
        CloseStep(doc, s, pos);
      } else {
        assert ScanBody(doc, pos, decl, depth, found) == ScanBody(doc, pos + 1, decl, depth - 1, found);
        OpenStep(doc, s, pos, depth);
        ScanBodyCloses(doc, s, pos + 1, decl, depth - 1, found);
      }
    case StartTag(name, _) =>
      if name == TAG_INTENT {
        var parsed := ParseIntent(doc, pos + 1, decl).value;
        var found' := if found.None? then Some(Launchable(parsed.1)) else found;
        assert ScanBody(doc, pos, decl, depth, found) == ScanBody(doc, parsed.0, decl, depth, found');
        OpenAcrossElement(doc, s, pos, depth, parsed.0);
        ScanBodyCloses(doc, s, parsed.0, decl, depth, found');
      } else {
        assert ScanBody(doc, pos, decl, depth, found) == ScanBody(doc, pos + 1, decl, depth + 1, found);
        OpenStep(doc, s, pos, depth);
        ScanBodyCloses(doc, s, pos + 1, decl, depth + 1, found);
      }
    case StartDocument =>
      assert ScanBody(doc, pos, decl, depth, found) == ScanBody(doc, pos + 1, decl, depth, found);
      OpenStep(doc, s, pos, depth);
      ScanBodyCloses(doc, s, pos + 1, decl, depth, found);
    case Text =>
      assert ScanBody(doc, pos, decl, depth, found) == ScanBody(doc, pos + 1, decl, depth, found);
      OpenStep(doc, s, pos, depth);
      ScanBodyCloses(doc, s, pos + 1, decl, depth, found);
  }

  /** ScanBody throws only when the element it reads never closes. */
  lemma {:induction false} ScanBodyTerminates(doc: Document, s: nat, pos: nat, decl: ComponentName, depth: nat, found: Option<Intent>)
    requires 0 < depth && Open(doc, s, pos, depth)
    ensures Closes(doc, s) ==> ScanBody(doc, pos, decl, depth, found).Success?
    decreases |doc| - pos
  {
    if pos == |doc| {
      NoEndAfterEof(doc, s, depth);
    } else {
      match doc[pos]
      case EndTag(_) =>
        if depth > 1 {
          OpenStep(doc, s, pos, depth);
          ScanBodyTerminates(doc, s, pos + 1, decl, depth - 1, found);
        }
      case StartTag(name, _) =>
        if name == TAG_INTENT {
          NestedCloses(doc, s, pos, depth);
          if ParseIntent(doc, pos + 1, decl).Success? {
            var parsed := ParseIntent(doc, pos + 1, decl).value;
            var found' := if found.None? then Some(Launchable(parsed.1)) else found;
            assert ScanBody(doc, pos, decl, depth, found) == ScanBody(doc, parsed.0, decl, depth, found');
            OpenAcrossElement(doc, s, pos, depth, parsed.0);
            ScanBodyTerminates(doc, s, parsed.0, decl, depth, found');
          }
        } else {
          OpenStep(doc, s, pos, depth);
          ScanBodyTerminates(doc, s, pos + 1, decl, depth + 1, found);
        }
      case StartDocument =>
        OpenStep(doc, s, pos, depth);
        ScanBodyTerminates(doc, s, pos + 1, decl, depth, found);
      case Text =>
        OpenStep(doc, s, pos, depth);
        ScanBodyTerminates(doc, s, pos + 1, decl, depth, found);
    }
  }

  /**
   * What ScanBody returns is the first `intent` element read from `s` on,
   * flagged for launch, or nothing when none was read.
   */
  lemma {:induction false} ScanBodyFirstIntent(doc: Document, s: nat, pos: nat, decl: ComponentName, depth: nat, found: Option<Intent>)
    requires s <= pos <= |doc| && 0 < depth
    requires found.None? ==> forall p | s <= p < pos :: !IsStart(doc[p], TAG_INTENT)
    requires ScanBody(doc, pos, decl, depth, found).Success?
    ensures var r := ScanBody(doc, pos, decl, depth, found).value;
            && (found.None? && r.1.None? ==> forall p | s <= p < r.0 :: !IsStart(doc[p], TAG_INTENT))
            && (found.None? && r.1.Some? ==>
                  exists p | s <= p < r.0 :: FirstIntentAt(doc, s, p) && r.1.value == Launchable(IntentOf(doc[p].attrs, decl)))
    decreases |doc| - pos
  {
    var r := ScanBody(doc, pos, decl, depth, found).value;
    match doc[pos]
    case EndTag(_) =>
      if depth > 1 {
        assert ScanBody(doc, pos, decl, depth, found) == ScanBody(doc, pos + 1, decl, depth - 1, found);
        ScanBodyFirstIntent(doc, s, pos + 1, decl, depth - 1, found);
      }
    case StartTag(name, _) =>
      if name == TAG_INTENT {
        var parsed := ParseIntent(doc, pos + 1, decl).value;
        var found' := if found.None? then Some(Launchable(parsed.1)) else found;
        assert ScanBody(doc, pos, decl, depth, found) == ScanBody(doc, parsed.0, decl, depth, found');
        if found.None? {
          assert r.1 == found';
          assert FirstIntentAt(doc, s, pos);
        }
      } else {
        assert ScanBody(doc, pos, decl, depth, found) == ScanBody(doc, pos + 1, decl, depth + 1, found);
        ScanBodyFirstIntent(doc, s, pos + 1, decl, depth + 1, found);
      }
    case StartDocument =>
      assert ScanBody(doc, pos, decl, depth, found) == ScanBody(doc, pos + 1, decl, depth, found);
      ScanBodyFirstIntent(doc, s, pos + 1, decl, depth, found);
    case Text =>
      assert ScanBody(doc, pos, decl, depth, found) == ScanBody(doc, pos + 1, decl, depth, found);
      ScanBodyFirstIntent(doc, s, pos + 1, decl, depth, found);
  }

  /** The id given to a shortcut without `shortcutId`: `<target>_shortcut<n>`. */
  function SynthesizedId(target: ComponentName, n: nat): (id: string)
    ensures var k := |ComponentString(target)| + |"_shortcut"|;
            && k < |id|
            && id[..|ComponentString(target)|] == ComponentString(target)
            && id[|ComponentString(target)|..k] == "_shortcut"
            && AllDigits(id[k..]) && DigitsValue(id[k..]) == n
  {
    var id := ComponentString(target) + "_shortcut" + NatToString(n);
    NatToStringDigits(n);
    assert id[|ComponentString(target)| + |"_shortcut"|..] == NatToString(n);
    id
  }

  /** Synthesized ids for one target differ whenever the counts differ. */
  lemma SynthesizedIdsDistinct(target: ComponentName, i: nat, j: nat)
    requires SynthesizedId(target, i) == SynthesizedId(target, j)
    ensures i == j
  {
    var prefix := ComponentString(target) + "_shortcut";
    assert SynthesizedId(target, i)[|prefix|..] == NatToString(i);
    assert SynthesizedId(target, j)[|prefix|..] == NatToString(j);
    NatToStringInjective(i, j);
  }

  /** Some `shortcut` start tag of the document declares `id` as its `shortcutId`. */
  ghost predicate IdDeclared(doc: Document, id: string) {
    exists p | 0 <= p < |doc| :: IsStart(doc[p], TAG_SHORTCUT) && Attr(doc[p].attrs, ATTR_SHORTCUT_ID) == Some(id)
  }

  /** A label attribute resolves to `v`, an absent one to "". */
  ghost predicate LabelIs(res: Resources, attrs: map<string, string>, attr: string, v: string) {
    || CharSequence(res, attrs, attr) == Success(Some(v))
    || (CharSequence(res, attrs, attr) == Success(None) && v == "")
  }

  /** The `icon` attribute resolves to the drawable `icon`. */
  ghost predicate IconIs(res: Resources, attrs: map<string, string>, icon: Drawable) {
    ResourceAttribute(attrs, ATTR_ICON).Success? && GetDrawable(res, ResourceAttribute(attrs, ATTR_ICON).value) == Success(icon)
  }

  /** Resolving one of the three labels or the icon of a shortcut throws. */
  ghost predicate ResolutionFails(res: Resources, attrs: map<string, string>) {
    || CharSequence(res, attrs, ATTR_SHORT_LABEL).Failure?
    || CharSequence(res, attrs, ATTR_LONG_LABEL).Failure?
    || CharSequence(res, attrs, ATTR_DISABLED_MESSAGE).Failure?
    || ResourceAttribute(attrs, ATTR_ICON).Failure?
    || GetDrawable(res, ResourceAttribute(attrs, ATTR_ICON).value).Failure?
  }

  /**
   * `rec` is the record built from the `shortcut` whose content begins at
   * `s`, when `n` records were accepted before it: every field comes from
   * the shortcut's own attributes or its first `intent`.
   */
  ghost predicate ShortcutRecord(res: Resources, doc: Document, decl: ComponentName, s: nat, rec: AppShortcut, n: nat) {
    && 0 < s <= |doc| && doc[s - 1].StartTag?
    && rec.activity == decl
    && (exists p: nat :: FirstIntentAt(doc, s, p) && rec.intent == Launchable(IntentOf(doc[p].attrs, decl)))
    && (ATTR_SHORTCUT_ID in doc[s - 1].attrs ==> rec.id == doc[s - 1].attrs[ATTR_SHORTCUT_ID])
    && (ATTR_SHORTCUT_ID !in doc[s - 1].attrs ==> rec.id == SynthesizedId(rec.intent.component, n))
    && LabelIs(res, doc[s - 1].attrs, ATTR_SHORT_LABEL, rec.shortLabel)
    && LabelIs(res, doc[s - 1].attrs, ATTR_LONG_LABEL, rec.longLabel)
    && LabelIs(res, doc[s - 1].attrs, ATTR_DISABLED_MESSAGE, rec.disabledMessage)
    && IconIs(res, doc[s - 1].attrs, rec.icon)
  }

  /**
   * What every record at index `i` of a result list satisfies: it is
   * declared by `decl`, both components pass the export gate, its intent
   * carries the launch flags, and its id is either declared in the document
   * or synthesized from its own index.
   */
  ghost predicate Admissible(info: PackageInfo, doc: Document, decl: ComponentName, s: AppShortcut, i: nat) {
    && s.activity == decl
    && IsExported(decl, info.activities)
    && IsExported(s.intent.component, info.activities)
    && s.intent.flags == LAUNCH_FLAGS
    && (s.id == SynthesizedId(s.intent.component, i) || IdDeclared(doc, s.id))
  }

  /** The attribute values of one `shortcut`, resolved before its subtree is read. */
  datatype Header = Header(id: Option<string>, shortLabel: Option<string>, longLabel: Option<string>, disabledMessage: Option<string>, icon: Drawable)

  /**
   * The id as written, then the three labels and the icon of a shortcut,
   * resolved in source order; the first resolution that throws ends the pass.
   */
  function ResolveHeader(res: Resources, attrs: map<string, string>): (r: Outcome<Header>)
    ensures r.Failure? <==> ResolutionFails(res, attrs)
    ensures r.Success? ==>
              && r.value.id == Attr(attrs, ATTR_SHORTCUT_ID)
              && CharSequence(res, attrs, ATTR_SHORT_LABEL) == Success(r.value.shortLabel)
              && CharSequence(res, attrs, ATTR_LONG_LABEL) == Success(r.value.longLabel)
              && CharSequence(res, attrs, ATTR_DISABLED_MESSAGE) == Success(r.value.disabledMessage)
              && IconIs(res, attrs, r.value.icon)
  {
    var shortLabel :- CharSequence(res, attrs, ATTR_SHORT_LABEL);
    var longLabel :- CharSequence(res, attrs, ATTR_LONG_LABEL);
    var disabledMessage :- CharSequence(res, attrs, ATTR_DISABLED_MESSAGE);
    var iconId :- ResourceAttribute(attrs, ATTR_ICON);
    var icon :- GetDrawable(res, iconId);
    Success(Header(Attr(attrs, ATTR_SHORTCUT_ID), shortLabel, longLabel, disabledMessage, icon))
  }

  /** The record ParseShortcut builds from a resolved header and the first intent. */
  lemma KeptRecord(res: Resources, doc: Document, decl: ComponentName, s: nat, n: nat, h: Header, intent: Intent)
    requires 0 < s <= |doc| && doc[s - 1].StartTag?
    requires ResolveHeader(res, doc[s - 1].attrs) == Success(h)
    requires exists p: nat :: FirstIntentAt(doc, s, p) && intent == Launchable(IntentOf(doc[p].attrs, decl))
    ensures ShortcutRecord(res, doc, decl, s, Built(h, intent, decl, n), n)
  {
  }

  /** `new AppShortcut(...)` after absent ids and labels are defaulted. */
  function Built(h: Header, intent: Intent, decl: ComponentName, n: nat): AppShortcut {
    AppShortcut(
      h.id.GetOr(SynthesizedId(intent.component, n)),
      intent,
      decl,
      h.shortLabel.GetOr(""),
      h.longLabel.GetOr(""),
      h.disabledMessage.GetOr(""),
      h.icon)
  }

  /**
   * One pass of the loop over `<shortcut>` elements; the shortcut's start
   * tag is `doc[pos - 1]` and `acc` holds the records accepted so far.
   */
  function ParseShortcut(info: PackageInfo, res: Resources, doc: Document, pos: nat, decl: ComponentName, acc: seq<AppShortcut>)
    : (r: Outcome<(nat, seq<AppShortcut>)>)
    requires 0 < pos <= |doc| && IsStart(doc[pos - 1], TAG_SHORTCUT)
    ensures r.Success? ==> MatchingEnd(doc, pos, r.value.0)
    ensures r.Success? ==>
              && |acc| <= |r.value.1| <= |acc| + 1
              && r.value.1[..|acc|] == acc
              && forall i | |acc| <= i < |r.value.1| :: Admissible(info, doc, decl, r.value.1[i], i)
    ensures ResolutionFails(res, doc[pos - 1].attrs) ==> r.Failure?
    ensures r.Failure? ==> ResolutionFails(res, doc[pos - 1].attrs) || r.error == Unterminated
  {
    var h :- ResolveHeader(res, doc[pos - 1].attrs);
    var body :- ScanBody(doc, pos, decl, 1, None);
    OpenStart(doc, pos);
    ScanBodyCloses(doc, pos, pos, decl, 1, None);
    match body.1
    case None => Success((body.0, acc))
    case Some(intent) =>
      ScanBodyFirstIntent(doc, pos, pos, decl, 1, None);
      if IsExported(decl, info.activities) && IsExported(intent.component, info.activities) then
        var shortcut := Built(h, intent, decl, |acc|);
        assert h.id.Some? ==> IsStart(doc[pos - 1], TAG_SHORTCUT) && Attr(doc[pos - 1].attrs, ATTR_SHORTCUT_ID) == Some(shortcut.id);
        Success((body.0, acc + [shortcut]))
      else
        Success((body.0, acc))
  }

  /**
   * A pass throws exactly when a label or the icon cannot be resolved or
   * the shortcut never closes: a shortcut without an intent, or one the
   * export gate rejects, is dropped without an error.
   */
  lemma ParseShortcutFails(info: PackageInfo, res: Resources, doc: Document, pos: nat, decl: ComponentName, acc: seq<AppShortcut>)
    requires 0 < pos <= |doc| && IsStart(doc[pos - 1], TAG_SHORTCUT)
    ensures ParseShortcut(info, res, doc, pos, decl, acc).Failure? <==>
              ResolutionFails(res, doc[pos - 1].attrs) || !Closes(doc, pos)
  {
    OpenStart(doc, pos);
    ScanBodyTerminates(doc, pos, pos, decl, 1, None);
    if ScanBody(doc, pos, decl, 1, None).Success? {
      ScanBodyCloses(doc, pos, pos, decl, 1, None);
    }
  }

  /**
   * The record a pass appends: id, labels and icon from the shortcut's
   * attributes, the intent from its first `intent` element, and `decl` as
   * the declaring activity.
   */
  lemma ParseShortcutRecord(info: PackageInfo, res: Resources, doc: Document, pos: nat, decl: ComponentName, acc: seq<AppShortcut>)
    requires 0 < pos <= |doc| && IsStart(doc[pos - 1], TAG_SHORTCUT)
    requires ParseShortcut(info, res, doc, pos, decl, acc).Success?
    requires |ParseShortcut(info, res, doc, pos, decl, acc).value.1| == |acc| + 1
    ensures ShortcutRecord(res, doc, decl, pos, ParseShortcut(info, res, doc, pos, decl, acc).value.1[|acc|], |acc|)
  {
    var h := ResolveHeader(res, doc[pos - 1].attrs).value;
    var body := ScanBody(doc, pos, decl, 1, None).value;
    ScanBodyFirstIntent(doc, pos, pos, decl, 1, None);
    KeptRecord(res, doc, decl, pos, |acc|, h, body.1.value);
  }

  /**
   * Which intent a shortcut gets and whether it is kept: the first `intent`
   * element of its subtree decides; with none the shortcut is dropped, and
   * otherwise it is kept exactly when both components pass the export gate.
   */
  lemma ShortcutKeptIff(info: PackageInfo, res: Resources, doc: Document, pos: nat, decl: ComponentName, acc: seq<AppShortcut>)
    requires 0 < pos <= |doc| && IsStart(doc[pos - 1], TAG_SHORTCUT)
    requires ParseShortcut(info, res, doc, pos, decl, acc).Success?
    ensures var r := ParseShortcut(info, res, doc, pos, decl, acc);
            && ((forall p | pos <= p < r.value.0 :: !IsStart(doc[p], TAG_INTENT)) ==> r.value.1 == acc)
            && (forall p | pos <= p < r.value.0 && FirstIntentAt(doc, pos, p) ::
                  var target := IntentOf(doc[p].attrs, decl).component;
                  (|r.value.1| == |acc| + 1 <==> IsExported(decl, info.activities) && IsExported(target, info.activities)))
            && (|r.value.1| == |acc| + 1 ==>
                  exists p | pos <= p < r.value.0 ::
                    FirstIntentAt(doc, pos, p) && r.value.1[|acc|].intent == Launchable(IntentOf(doc[p].attrs, decl)))
  {
    ScanBodyFirstIntent(doc, pos, pos, decl, 1, None);
  }

  /**
   * The shortcut whose content begins at `s` yields a record: its first
   * `intent` lies inside it and both components pass the export gate.
   */
  ghost predicate Kept(info: PackageInfo, doc: Document, decl: ComponentName, s: nat) {
    exists e: nat, p: nat ::
      && MatchingEnd(doc, s, e) && s <= p < e && FirstIntentAt(doc, s, p)
      && IsExported(decl, info.activities)
      && IsExported(IntentOf(doc[p].attrs, decl).component, info.activities)
  }

  /** A pass appends a record exactly when its shortcut is kept. */
  lemma ParseShortcutKept(info: PackageInfo, res: Resources, doc: Document, pos: nat, decl: ComponentName, acc: seq<AppShortcut>)
    requires 0 < pos <= |doc| && IsStart(doc[pos - 1], TAG_SHORTCUT)
    requires ParseShortcut(info, res, doc, pos, decl, acc).Success?
    ensures |ParseShortcut(info, res, doc, pos, decl, acc).value.1| == |acc| + 1 <==> Kept(info, doc, decl, pos)
  {
    var r := ParseShortcut(info, res, doc, pos, decl, acc).value;
    ShortcutKeptIff(info, res, doc, pos, decl, acc);
    if Kept(info, doc, decl, pos) {
      var e: nat, p: nat :| MatchingEnd(doc, pos, e) && pos <= p < e && FirstIntentAt(doc, pos, p)
                             && IsExported(decl, info.activities)
                             && IsExported(IntentOf(doc[p].attrs, decl).component, info.activities);
      MatchingEndUnique(doc, pos, e, r.0);
    }
  }

  /** Two admitted extensions in a row make one. */
  lemma AdmittedChain(info: PackageInfo, doc: Document, decl: ComponentName, acc: seq<AppShortcut>, mid: seq<AppShortcut>, all: seq<AppShortcut>)
    requires |acc| <= |mid| <= |all| && mid[..|acc|] == acc && all[..|mid|] == mid
    requires forall i | |acc| <= i < |mid| :: Admissible(info, doc, decl, mid[i], i)
    requires forall i | |mid| <= i < |all| :: Admissible(info, doc, decl, all[i], i)
    ensures all[..|acc|] == acc
    ensures forall i | |acc| <= i < |all| :: Admissible(info, doc, decl, all[i], i)
  {
    assert all[..|acc|] == all[..|mid|][..|acc|];
    forall i | |acc| <= i < |mid| ensures all[i] == mid[i] {
      assert all[..|mid|][i] == all[i];
    }
  }

  /**
   * The loop of `parse` over the children of `<shortcuts>`: it ends at the
   * first end tag, and every other event must be a `shortcut` start tag.
   */
  function ShortcutLoop(info: PackageInfo, res: Resources, doc: Document, pos: nat, decl: ComponentName, acc: seq<AppShortcut>)
    : (r: Outcome<seq<AppShortcut>>)
    requires pos <= |doc|
    ensures r.Success? ==>
              && |acc| <= |r.value|
              && r.value[..|acc|] == acc
              && forall i | |acc| <= i < |r.value| :: Admissible(info, doc, decl, r.value[i], i)
    ensures pos < |doc| && !doc[pos].EndTag? && !IsStart(doc[pos], TAG_SHORTCUT) ==> r == Failure(XmlPullParser)
    ensures pos == |doc| ==> r == Failure(XmlPullParser)
    ensures r.Failure? ==> r.error == XmlPullParser || r.error == Unterminated || r.error == NumberFormat || r.error.NotFound?
    decreases |doc| - pos
  {
    if pos < |doc| && doc[pos].EndTag? then Success(acc)
    else if pos == |doc| || !IsStart(doc[pos], TAG_SHORTCUT) then Failure(XmlPullParser)
    else
      var step :- ParseShortcut(info, res, doc, pos + 1, decl, acc);
      var r := ShortcutLoop(info, res, doc, step.0, decl, step.1);
      if r.Success? then
        AdmittedChain(info, doc, decl, acc, step.1, r.value);
        r
      else
        r
  }

  /**
   * The loop over the children of the element whose content begins at `s0`
   * throws at its top-level position `q`: the document ends there, the
   * event there is neither an end tag nor a `shortcut` start tag, or it is
   * a `shortcut` that fails to resolve or never closes.
   */
  ghost predicate BreaksAt(res: Resources, doc: Document, s0: nat, q: nat) {
    && Open(doc, s0, q, 1)
    && (|| q == |doc|
        || (!doc[q].EndTag? && !IsStart(doc[q], TAG_SHORTCUT))
        || (IsStart(doc[q], TAG_SHORTCUT) && (ResolutionFails(res, doc[q].attrs) || !Closes(doc, q + 1))))
  }

  /** The loop throws only at a child that breaks it. */
  lemma {:induction false} ShortcutLoopFails(info: PackageInfo, res: Resources, doc: Document, s0: nat, pos: nat, decl: ComponentName, acc: seq<AppShortcut>)
    requires Open(doc, s0, pos, 1)
    ensures ShortcutLoop(info, res, doc, pos, decl, acc).Failure? ==> exists q: nat | pos <= q :: BreaksAt(res, doc, s0, q)
    decreases |doc| - pos
  {
    if pos < |doc| && doc[pos].EndTag? {
    } else if pos == |doc| || !IsStart(doc[pos], TAG_SHORTCUT) {
      assert BreaksAt(res, doc, s0, pos);
    } else {
      ParseShortcutFails(info, res, doc, pos + 1, decl, acc);
      if ParseShortcut(info, res, doc, pos + 1, decl, acc).Failure? {
        assert BreaksAt(res, doc, s0, pos);
      } else {
        var (e0, mid) := ParseShortcut(info, res, doc, pos + 1, decl, acc).value;
        assert ShortcutLoop(info, res, doc, pos, decl, acc) == ShortcutLoop(info, res, doc, e0, decl, mid);
        OpenAcrossElement(doc, s0, pos, 1, e0);
        ShortcutLoopFails(info, res, doc, s0, e0, decl, mid);
      }
    }
  }

  /** A child that breaks the loop makes it throw: the loop reaches every top-level position before the end tag. */
  lemma {:induction false} ShortcutLoopBreaks(info: PackageInfo, res: Resources, doc: Document, s0: nat, pos: nat, decl: ComponentName, acc: seq<AppShortcut>, q: nat)
    requires Open(doc, s0, pos, 1) && pos <= q
    ensures BreaksAt(res, doc, s0, q) ==> ShortcutLoop(info, res, doc, pos, decl, acc).Failure?
    decreases |doc| - pos
  {
    if pos < q && pos < |doc| {
      if doc[pos].EndTag? {
        assert DepthAt(doc, s0, pos + 1) == -1;
        assert !Open(doc, s0, q, 1);
      } else if IsStart(doc[pos], TAG_SHORTCUT) {
        ParseShortcutFails(info, res, doc, pos + 1, decl, acc);
        if ParseShortcut(info, res, doc, pos + 1, decl, acc).Success? {
          var (e0, mid) := ParseShortcut(info, res, doc, pos + 1, decl, acc).value;
          assert ShortcutLoop(info, res, doc, pos, decl, acc) == ShortcutLoop(info, res, doc, e0, decl, mid);
          if q < e0 {
            InsideElement(doc, s0, pos, 1, e0, q);
          } else {
            OpenAcrossElement(doc, s0, pos, 1, e0);
            ShortcutLoopBreaks(info, res, doc, s0, e0, decl, mid, q);
          }
        }
      }
    } else if pos == q && pos < |doc| && IsStart(doc[pos], TAG_SHORTCUT) {
      ParseShortcutFails(info, res, doc, pos + 1, decl, acc);
    }
  }

  /** `doc[q]` is a `shortcut` child of the element whose content begins at `s0`, and it is kept. */
  ghost predicate TopKept(info: PackageInfo, doc: Document, decl: ComponentName, s0: nat, q: nat) {
    && Open(doc, s0, q, 1) && q < |doc| && IsStart(doc[q], TAG_SHORTCUT)
    && Kept(info, doc, decl, q + 1)
  }

  /** How many kept `shortcut` children start before position `j`. */
  ghost function KeptCount(info: PackageInfo, doc: Document, decl: ComponentName, s0: nat, j: nat): nat
    requires s0 <= j <= |doc|
    decreases j
  {
    if j == s0 then 0
    else KeptCount(info, doc, decl, s0, j - 1) + (if TopKept(info, doc, decl, s0, j - 1) then 1 else 0)
  }

  /** Positions off the top level count nothing. */
  lemma {:induction false} KeptCountFlat(info: PackageInfo, doc: Document, decl: ComponentName, s0: nat, a: nat, b: nat)
    requires s0 <= a <= b <= |doc|
    requires forall j | a <= j < b :: !Open(doc, s0, j, 1)
    ensures KeptCount(info, doc, decl, s0, b) == KeptCount(info, doc, decl, s0, a)
    decreases b
  {
    if a < b {
      KeptCountFlat(info, doc, decl, s0, a, b - 1);
    }
  }

  /** A kept shortcut's index is below that of every later position. */
  lemma {:induction false} KeptCountOrder(info: PackageInfo, doc: Document, decl: ComponentName, s0: nat, q: nat, j: nat)
    requires TopKept(info, doc, decl, s0, q) && q < j <= |doc|
    ensures KeptCount(info, doc, decl, s0, q) < KeptCount(info, doc, decl, s0, j)
    decreases j
  {
    if j > q + 1 {
      KeptCountOrder(info, doc, decl, s0, q, j - 1);
    }
  }

  /** A loop run from `pos` appends one record per kept child it passes over. */
  ghost predicate CountIs(info: PackageInfo, doc: Document, decl: ComponentName, s0: nat, pos: nat, acc: seq<AppShortcut>, out: seq<AppShortcut>)
    requires s0 <= pos <= |doc|
  {
    |out| == |acc| + KeptCount(info, doc, decl, s0, |doc|) - KeptCount(info, doc, decl, s0, pos)
  }

  /** If the child `doc[q]` is kept, it yields the record at the index given by the kept children between `pos` and it. */
  ghost predicate PlacedAt(info: PackageInfo, res: Resources, doc: Document, decl: ComponentName, s0: nat, pos: nat, acc: seq<AppShortcut>, out: seq<AppShortcut>, q: nat)
    requires s0 <= pos <= q
  {
    TopKept(info, doc, decl, s0, q) ==>
      var i := |acc| + KeptCount(info, doc, decl, s0, q) - KeptCount(info, doc, decl, s0, pos);
      0 <= i < |out| && ShortcutRecord(res, doc, decl, q + 1, out[i], i)
  }

  /** Each kept child from `pos` on yields the record at the index given by the kept children before it. */
  ghost predicate Placed(info: PackageInfo, res: Resources, doc: Document, decl: ComponentName, s0: nat, pos: nat, acc: seq<AppShortcut>, out: seq<AppShortcut>)
    requires s0 <= pos <= |doc|
  {
    forall q: nat | pos <= q :: PlacedAt(info, res, doc, decl, s0, pos, acc, out, q)
  }

  /** The records a loop run appends from `pos` on, indexed by the kept children before each. */
  ghost predicate Contents(info: PackageInfo, res: Resources, doc: Document, decl: ComponentName, s0: nat, pos: nat, acc: seq<AppShortcut>, out: seq<AppShortcut>)
    requires s0 <= pos <= |doc|
  {
    CountIs(info, doc, decl, s0, pos, acc, out) && Placed(info, res, doc, decl, s0, pos, acc, out)
  }

  /** The `shortcuts` element closes at `pos`: nothing after it counts. */
  lemma LoopEndContents(info: PackageInfo, res: Resources, doc: Document, decl: ComponentName, s0: nat, pos: nat, acc: seq<AppShortcut>)
    requires Open(doc, s0, pos, 1) && pos < |doc| && doc[pos].EndTag?
    ensures Contents(info, res, doc, decl, s0, pos, acc, acc)
  {
    forall j | pos + 1 <= j < |doc| ensures !Open(doc, s0, j, 1) {
      assert DepthAt(doc, s0, pos + 1) == -1;
    }
    KeptCountFlat(info, doc, decl, s0, pos + 1, |doc|);
  }

  /** The `shortcut` child `doc[pos]`, whose element closes at `e0`, counts once if kept. */
  lemma LoopStepCount(info: PackageInfo, doc: Document, decl: ComponentName, s0: nat, pos: nat, e0: nat)
    requires Open(doc, s0, pos, 1) && pos < |doc| && IsStart(doc[pos], TAG_SHORTCUT) && MatchingEnd(doc, pos + 1, e0)
    ensures KeptCount(info, doc, decl, s0, e0) == KeptCount(info, doc, decl, s0, pos) + (if Kept(info, doc, decl, pos + 1) then 1 else 0)
    ensures forall q | pos < q < e0 :: !Open(doc, s0, q, 1)
  {
    forall j | pos + 1 <= j < e0 ensures !Open(doc, s0, j, 1) {
      InsideElement(doc, s0, pos, 1, e0, j);
    }
    KeptCountFlat(info, doc, decl, s0, pos + 1, e0);
    assert TopKept(info, doc, decl, s0, pos) == Kept(info, doc, decl, pos + 1);
  }

  /** The record a pass appends at the end of `acc` survives as a prefix element of the final list. */
  lemma PlacedHead(res: Resources, doc: Document, decl: ComponentName, pos: nat, acc: seq<AppShortcut>, mid: seq<AppShortcut>, out: seq<AppShortcut>, i: int)
    requires i == |acc| < |mid| <= |out| && out[..|mid|] == mid
    requires ShortcutRecord(res, doc, decl, pos + 1, mid[|acc|], |acc|)
    ensures 0 <= i < |out| && ShortcutRecord(res, doc, decl, pos + 1, out[i], i)
  {
  }

  /** A kept child at or after `e0` keeps the place `Placed` gives it from `e0` on. */
  lemma PlacedLater(info: PackageInfo, res: Resources, doc: Document, decl: ComponentName, s0: nat, e0: nat, mid: seq<AppShortcut>, out: seq<AppShortcut>, q: nat, i: int)
    requires s0 <= e0 <= q < |doc| && Placed(info, res, doc, decl, s0, e0, mid, out) && TopKept(info, doc, decl, s0, q)
    requires i == |mid| + KeptCount(info, doc, decl, s0, q) - KeptCount(info, doc, decl, s0, e0)
    ensures 0 <= i < |out| && ShortcutRecord(res, doc, decl, q + 1, out[i], i)
  {
    assert PlacedAt(info, res, doc, decl, s0, e0, mid, out, q);
  }

  /** One pass over the `shortcut` child `doc[pos]`, whose element closes at `e0`, keeps every record in place. */
  lemma LoopStepPlaced(info: PackageInfo, res: Resources, doc: Document, decl: ComponentName, s0: nat, pos: nat, e0: nat, acc: seq<AppShortcut>, mid: seq<AppShortcut>, out: seq<AppShortcut>)
    requires Open(doc, s0, pos, 1) && pos < |doc| && IsStart(doc[pos], TAG_SHORTCUT) && MatchingEnd(doc, pos + 1, e0)
    requires |mid| == |acc| + (if Kept(info, doc, decl, pos + 1) then 1 else 0)
    requires Kept(info, doc, decl, pos + 1) ==> ShortcutRecord(res, doc, decl, pos + 1, mid[|acc|], |acc|)
    requires |mid| <= |out| && out[..|mid|] == mid
    requires Open(doc, s0, e0, 1) && Placed(info, res, doc, decl, s0, e0, mid, out)
    ensures Placed(info, res, doc, decl, s0, pos, acc, out)
  {
    LoopStepCount(info, doc, decl, s0, pos, e0);
    var here := KeptCount(info, doc, decl, s0, pos);
    forall q: nat | pos <= q ensures PlacedAt(info, res, doc, decl, s0, pos, acc, out, q) {
      if TopKept(info, doc, decl, s0, q) {
        if q == pos {
          PlacedHead(res, doc, decl, pos, acc, mid, out, |acc| + KeptCount(info, doc, decl, s0, q) - here);
        } else {
          assert e0 <= q;
          PlacedLater(info, res, doc, decl, s0, e0, mid, out, q, |acc| + KeptCount(info, doc, decl, s0, q) - here);
        }
      }
    }
  }

  /** A successful loop run that does not stop at `pos` passes over the `shortcut` there and goes on. */
  lemma LoopUnfold(info: PackageInfo, res: Resources, doc: Document, pos: nat, decl: ComponentName, acc: seq<AppShortcut>, out: seq<AppShortcut>)
    requires pos <= |doc| && ShortcutLoop(info, res, doc, pos, decl, acc) == Success(out)
    requires !(pos < |doc| && doc[pos].EndTag?)
    ensures pos < |doc| && IsStart(doc[pos], TAG_SHORTCUT)
    ensures ParseShortcut(info, res, doc, pos + 1, decl, acc).Success?
    ensures var step := ParseShortcut(info, res, doc, pos + 1, decl, acc).value;
            ShortcutLoop(info, res, doc, step.0, decl, step.1) == Success(out)
  {
  }

  /** The loop appends exactly as many records as there are kept `shortcut` children ahead of it. */
  lemma {:induction false} ShortcutLoopCount(info: PackageInfo, res: Resources, doc: Document, s0: nat, pos: nat, decl: ComponentName, acc: seq<AppShortcut>, out: seq<AppShortcut>)
    requires Open(doc, s0, pos, 1)
    requires ShortcutLoop(info, res, doc, pos, decl, acc) == Success(out)
    ensures CountIs(info, doc, decl, s0, pos, acc, out)
    decreases |doc| - pos
  {
    if doc[pos].EndTag? {
      LoopEndContents(info, res, doc, decl, s0, pos, acc);
    } else {
      LoopUnfold(info, res, doc, pos, decl, acc, out);
      var (e0, mid) := ParseShortcut(info, res, doc, pos + 1, decl, acc).value;
      OpenAcrossElement(doc, s0, pos, 1, e0);
      ShortcutLoopCount(info, res, doc, s0, e0, decl, mid, out);
      ParseShortcutKept(info, res, doc, pos + 1, decl, acc);
      LoopStepCount(info, doc, decl, s0, pos, e0);
    }
  }

  /**
   * The loop appends one record for each kept `shortcut` child, in
   * document order: the child preceded by `n` kept children yields the
   * record at index `n`, built from that child.
   */
  lemma {:induction false} ShortcutLoopPlaced(info: PackageInfo, res: Resources, doc: Document, s0: nat, pos: nat, decl: ComponentName, acc: seq<AppShortcut>, out: seq<AppShortcut>)
    requires Open(doc, s0, pos, 1)
    requires ShortcutLoop(info, res, doc, pos, decl, acc) == Success(out)
    ensures Placed(info, res, doc, decl, s0, pos, acc, out)
    decreases |doc| - pos
  {
    if doc[pos].EndTag? {
      LoopEndContents(info, res, doc, decl, s0, pos, acc);
    } else {
      LoopUnfold(info, res, doc, pos, decl, acc, out);
      var (e0, mid) := ParseShortcut(info, res, doc, pos + 1, decl, acc).value;
      OpenAcrossElement(doc, s0, pos, 1, e0);
      ShortcutLoopPlaced(info, res, doc, s0, e0, decl, mid, out);
      ParseShortcutKept(info, res, doc, pos + 1, decl, acc);
      if |mid| == |acc| + 1 {
        ParseShortcutRecord(info, res, doc, pos + 1, decl, acc);
      }
      LoopStepPlaced(info, res, doc, decl, s0, pos, e0, acc, mid, out);
    }
  }

  /**
   * `parse`: the package's activities are fetched first, then the XML
   * resource `resId`, whose current event after two unconditional advances
   * must be the `shortcuts` start tag.
   */
  function Parse(ctx: Context, res: Resources, packageName: string, decl: ComponentName, resId: int)
    : (r: Outcome<seq<AppShortcut>>)
    ensures packageName !in ctx.packages ==> r == Failure(NameNotFound(packageName))
    ensures packageName in ctx.packages && resId !in res.xml ==> r == Failure(NotFound(resId))
    ensures (&& packageName in ctx.packages && resId in res.xml
             && !(2 <= |res.xml[resId]| && IsStart(res.xml[resId][1], TAG_SHORTCUTS))) ==> r == Failure(XmlPullParser)
    ensures r.Success? ==>
              && packageName in ctx.packages && resId in res.xml
              && forall i | 0 <= i < |r.value| ::
                   Admissible(ctx.packages[packageName].info, res.xml[resId], decl, r.value[i], i)
    ensures r.Success? && !IsExported(decl, ctx.packages[packageName].info.activities) ==> r.value == []
    ensures r.Failure? ==>
              || r.error == XmlPullParser || r.error == Unterminated || r.error == NumberFormat
              || r.error.NotFound? || r.error.NameNotFound?
  {
    var info :- GetPackageInfo(ctx, packageName);
    var doc :- GetXml(res, resId);
    if |doc| < 2 || !IsStart(doc[1], TAG_SHORTCUTS) then Failure(XmlPullParser)
    else
      var r := ShortcutLoop(info, res, doc, 2, decl, []);
      assert r.Success? && |r.value| > 0 ==> Admissible(info, doc, decl, r.value[0], 0);
      r
  }

  /**
   * What `parse` returns: one record per kept `shortcut` child of
   * `shortcuts`, in document order, each built from its own element.
   */
  lemma ParseContents(ctx: Context, res: Resources, packageName: string, decl: ComponentName, resId: int)
    requires Parse(ctx, res, packageName, decl, resId).Success?
    ensures packageName in ctx.packages && resId in res.xml && 2 <= |res.xml[resId]|
    ensures var info := ctx.packages[packageName].info;
            var doc := res.xml[resId];
            Contents(info, res, doc, decl, 2, 2, [], Parse(ctx, res, packageName, decl, resId).value)
  {
    var info := ctx.packages[packageName].info;
    var doc := res.xml[resId];
    OpenStart(doc, 2);
    ShortcutLoopCount(info, res, doc, 2, 2, decl, [], Parse(ctx, res, packageName, decl, resId).value);
    ShortcutLoopPlaced(info, res, doc, 2, 2, decl, [], Parse(ctx, res, packageName, decl, resId).value);
  }

  /**
   * `parse` throws only for an unknown package, a missing resource, a
   * document that does not open with `shortcuts`, or a child of
   * `shortcuts` that breaks the loop; and every such child makes it throw.
   */
  lemma ParseFails(ctx: Context, res: Resources, packageName: string, decl: ComponentName, resId: int)
    ensures Parse(ctx, res, packageName, decl, resId).Failure? <==>
              || packageName !in ctx.packages
              || resId !in res.xml
              || !(2 <= |res.xml[resId]| && IsStart(res.xml[resId][1], TAG_SHORTCUTS))
              || exists q: nat | 2 <= q :: BreaksAt(res, res.xml[resId], 2, q)
  {
    if packageName in ctx.packages && resId in res.xml && 2 <= |res.xml[resId]| && IsStart(res.xml[resId][1], TAG_SHORTCUTS) {
      var info := ctx.packages[packageName].info;
      var doc := res.xml[resId];
      OpenStart(doc, 2);
      ShortcutLoopFails(info, res, doc, 2, 2, decl, []);
      forall q: nat | 2 <= q && BreaksAt(res, doc, 2, q) ensures Parse(ctx, res, packageName, decl, resId).Failure? {
        ShortcutLoopBreaks(info, res, doc, 2, 2, decl, [], q);
      }
    }
  }
}

=== FILE: wrappers.dfy ===
/**
 * Optional values and outcomes. `Result` supplies the three members the
 * `:-` operator needs, so a failing step ends the enclosing computation
 * with its exception, as an uncaught Java exception does.
 */
module Wrappers {

  /** Java's `null` made explicit: `None` stands for an absent reference. */
  datatype Option<+T> = None | Some(value: T) {

    /** The Java idiom `x != null ? x : fallback`. */
    function GetOr(fallback: T): T {
      match this
      case Some(v) => v
      case None => fallback
    }
  }

  /** The value a Java method returns, or the exception it throws. */
  datatype Result<+T, +E> = Success(value: T) | Failure(error: E) {

    /** `:-` stops here when this is an exception. */
    predicate IsFailure() {
      Failure?
    }

    /** The same exception, re-typed for the caller. */
    function PropagateFailure<U>(): Result<U, E>
      requires Failure?
    {
      Failure(error)
    }

    /** What `:-` binds when there was no exception. */
    function Extract(): T
      requires Success?
    {
      value
    }
  }
}

=== FILE: xml_pull.dfy ===
/**
 * The forward-only XML pull-event stream both parsers read, and the
 * depth-balanced `skip` they share.
 *
 * A document is the sequence of events `next()` returns after the parser is
 * opened; END_DOCUMENT is not an element of it but what `next()` reports
 * once the sequence is exhausted. A scanner's position `pos` is the index
 * of the next event to read, so the parser's current event is
 * `doc[pos - 1]`.
 */
module XmlPull {
  import opened Wrappers
  import opened Platform

  /** One pull event; a start tag carries its android-namespace attributes. */
  datatype Event =
    | StartDocument
    | StartTag(name: string, attrs: map<string, string>)
    | EndTag(name: string)
    | Text

  type Document = seq<Event>

  /** The event is a start tag with the given name. */
  predicate IsStart(e: Event, name: string) {
    e.StartTag? && e.name == name
  }

  /** `getAttributeValue(NAMESPACE_ANDROID, name)`. */
  function Attr(attrs: map<string, string>, name: string): Option<string> {
    if name in attrs then Some(attrs[name]) else None
  }

  /** How an event moves the nesting depth. */
  function Weight(e: Event): int {
    match e
    case StartTag(_, _) => 1
    case EndTag(_) => -1
    case _ => 0
  }

  /** The net change of nesting depth over the events `doc[s..j]`. */
  function DepthAt(doc: Document, s: nat, j: nat): int
    requires s <= j <= |doc|
    decreases j
  {
    if j == s then 0 else DepthAt(doc, s, j - 1) + Weight(doc[j - 1])
  }

  /**
   * The element whose start tag is `doc[from - 1]` closes with the end tag
   * `doc[q - 1]`: the depth first drops below its starting level there.
   */
  ghost predicate MatchingEnd(doc: Document, from: nat, q: nat) {
    && from < q <= |doc|
    && DepthAt(doc, from, q) == -1
    && forall j | from <= j < q :: DepthAt(doc, from, j) >= 0
  }

  /** The element whose start tag is `doc[from - 1]` has a matching end tag. */
  ghost predicate Closes(doc: Document, from: nat) {
    exists q: nat :: MatchingEnd(doc, from, q)
  }

  /**
   * A depth loop that started at `s` just inside an element has read up to
   * `pos` without closing it and sits at nesting level `depth`.
   */
  ghost predicate Open(doc: Document, s: nat, pos: nat, depth: int) {
    && s <= pos <= |doc|
    && depth == 1 + DepthAt(doc, s, pos)
    && forall j | s <= j <= pos :: DepthAt(doc, s, j) >= 0
  }

  lemma {:induction false} DepthConcat(doc: Document, a: nat, b: nat, c: nat)
    requires a <= b <= c <= |doc|
    ensures DepthAt(doc, a, c) == DepthAt(doc, a, b) + DepthAt(doc, b, c)
    decreases c - b
  {
    if c > b {
      DepthConcat(doc, a, b, c - 1);
    }
  }

  lemma OpenStart(doc: Document, s: nat)
    requires s <= |doc|
    ensures Open(doc, s, s, 1)
  {
  }

  /** Reading one more event that does not close the element keeps it open. */
  lemma OpenStep(doc: Document, s: nat, pos: nat, depth: int)
    requires Open(doc, s, pos, depth) && pos < |doc|
    requires 0 < depth + Weight(doc[pos])
    ensures Open(doc, s, pos + 1, depth + Weight(doc[pos]))
  {
  }

  /** An end tag read at level 1 is the element's matching end tag. */
  lemma CloseStep(doc: Document, s: nat, pos: nat)
    requires Open(doc, s, pos, 1) && pos < |doc| && doc[pos].EndTag?
    ensures MatchingEnd(doc, s, pos + 1)
  {
  }

  /** Consuming a whole nested element leaves the enclosing loop at its level. */
  lemma OpenAcrossElement(doc: Document, s: nat, pos: nat, depth: int, q: nat)
    requires Open(doc, s, pos, depth) && pos < |doc| && doc[pos].StartTag?
    requires MatchingEnd(doc, pos + 1, q)
    ensures Open(doc, s, q, depth)
  {
    forall j | pos < j <= q
      ensures DepthAt(doc, s, j) == DepthAt(doc, s, pos) + 1 + DepthAt(doc, pos + 1, j)
    {
      DepthConcat(doc, s, pos + 1, j);
    }
  }

  /** Positions strictly inside a nested element lie deeper than the loop that read its start tag. */
  lemma InsideElement(doc: Document, s: nat, pos: nat, depth: int, q: nat, j: nat)
    requires Open(doc, s, pos, depth) && pos < |doc| && doc[pos].StartTag?
    requires MatchingEnd(doc, pos + 1, q) && pos < j < q
    ensures 1 + DepthAt(doc, s, j) > depth
  {
    DepthConcat(doc, s, pos + 1, j);
  }

  /** An element nested in another closes no later than the outer one. */
  lemma NestedWithin(doc: Document, from: nat, q: nat, b: nat, e: nat)
    requires MatchingEnd(doc, from, q) && from <= b < q && doc[b].StartTag?
    requires MatchingEnd(doc, b + 1, e)
    ensures e <= q
  {
    DepthConcat(doc, from, b + 1, q);
  }

  /** Where the depth first drops below the starting level, the element closes. */
  lemma {:induction false} FirstDrop(doc: Document, from: nat, x: nat)
    requires from <= x <= |doc| && DepthAt(doc, from, x) < 0
    ensures exists q | from < q <= x :: MatchingEnd(doc, from, q)
    decreases x
  {
    if forall j | from <= j < x :: DepthAt(doc, from, j) >= 0 {
      assert MatchingEnd(doc, from, x);
    } else {
      var j :| from <= j < x && DepthAt(doc, from, j) < 0;
      FirstDrop(doc, from, j);
    }
  }

  /** A start tag read inside an element that closes opens an element that closes too. */
  lemma NestedCloses(doc: Document, s: nat, pos: nat, depth: int)
    requires Open(doc, s, pos, depth) && pos < |doc| && doc[pos].StartTag?
    ensures Closes(doc, s) ==> Closes(doc, pos + 1)
  {
    if Closes(doc, s) {
      var e: nat :| MatchingEnd(doc, s, e);
      assert pos < e;
      DepthConcat(doc, s, pos + 1, e);
      FirstDrop(doc, pos + 1, e);
    }
  }

  /** A start tag read at level 1 whose loop is again at level 1 later has closed in between. */
  lemma ClosesBefore(doc: Document, s: nat, pos: nat, p: nat) returns (q: nat)
    requires Open(doc, s, pos, 1) && Open(doc, s, p, 1) && pos < p && doc[pos].StartTag?
    ensures pos + 1 < q <= p && MatchingEnd(doc, pos + 1, q)
  {
    DepthConcat(doc, s, pos + 1, p);
    FirstDrop(doc, pos + 1, p);
    q :| pos + 1 < q <= p && MatchingEnd(doc, pos + 1, q);
  }

  /** An element still open at the end of the document has no matching end tag. */
  lemma NoEndAfterEof(doc: Document, s: nat, depth: int)
    requires Open(doc, s, |doc|, depth)
    ensures forall q: nat :: !MatchingEnd(doc, s, q)
  {
  }

  lemma MatchingEndUnique(doc: Document, s: nat, q1: nat, q2: nat)
    requires MatchingEnd(doc, s, q1) && MatchingEnd(doc, s, q2)
    ensures q1 == q2
  {
  }

  /** The depth loop of `skip`: read events until the level-1 element closes. */
  function SkipFrom(doc: Document, pos: nat, depth: nat): (r: Outcome<nat>)
    requires pos <= |doc| && 0 < depth
    ensures r.Success? ==> pos < r.value <= |doc|
    decreases |doc| - pos
  {
    if pos == |doc| then Failure(Unterminated)
    else match doc[pos]
      case EndTag(_) => if depth == 1 then Success(pos + 1) else SkipFrom(doc, pos + 1, depth - 1)
      case StartTag(_, _) => SkipFrom(doc, pos + 1, depth + 1)
      case _ => SkipFrom(doc, pos + 1, depth)
  }

  /** From any open state, SkipFrom stops exactly at the matching end tag, if there is one. */
  lemma {:induction false} SkipFromSpec(doc: Document, s: nat, pos: nat, depth: nat)
    requires 0 < depth && Open(doc, s, pos, depth)
    ensures forall q: nat :: SkipFrom(doc, pos, depth) == Success(q) <==> MatchingEnd(doc, s, q)
    ensures SkipFrom(doc, pos, depth).Failure? ==> SkipFrom(doc, pos, depth).error == Unterminated
    decreases |doc| - pos
  {
    if pos == |doc| {
      NoEndAfterEof(doc, s, depth);
    } else {
      match doc[pos]
      case EndTag(_) =>
        if depth == 1 {
          CloseStep(doc, s, pos);
          forall q | MatchingEnd(doc, s, q) ensures q == pos + 1 {
            MatchingEndUnique(doc, s, q, pos + 1);
          }
        } else {
          OpenStep(doc, s, pos, depth);
          SkipFromSpec(doc, s, pos + 1, depth - 1);
        }
      case StartTag(_, _) =>
        OpenStep(doc, s, pos, depth);
        SkipFromSpec(doc, s, pos + 1, depth + 1);
      case StartDocument =>
        OpenStep(doc, s, pos, depth);
        SkipFromSpec(doc, s, pos + 1, depth);
      case Text =>
        OpenStep(doc, s, pos, depth);
        SkipFromSpec(doc, s, pos + 1, depth);
    }
  }

  /**
   * `skip`: the current event `doc[pos - 1]` must be a start tag; the
   * result is the position just past its matching end tag.
   */
  function Skip(doc: Document, pos: nat): (r: Outcome<nat>)
    requires pos <= |doc|
    ensures !(0 < pos && doc[pos - 1].StartTag?) ==> r == Failure(IllegalState)
    ensures 0 < pos && doc[pos - 1].StartTag? ==>
              && (forall q: nat :: r == Success(q) <==> MatchingEnd(doc, pos, q))
              && (r.Failure? ==> r.error == Unterminated)
    ensures r.Success? ==> MatchingEnd(doc, pos, r.value)
  {
    if 0 < pos && doc[pos - 1].StartTag? then
      OpenStart(doc, pos);
      SkipFromSpec(doc, pos, pos, 1);
      SkipFrom(doc, pos, 1)
    else
      Failure(IllegalState)
  }
}
